=== FILE: README.md ===
# OpenMM script builder — a Dafny model of its core rules

openmm-builder is a small traits/traitsui application. It builds an OpenMM
simulation script from option forms. It can also run such a script while
plotting the `StateDataReporter` output live. This project models the pure
rules underneath the GUI and thread plumbing, and proves properties of them.

- **Rewriter** (`fix_code`): every token whose text is exactly
  `StateDataReporter` becomes `__queue_reporter_factory(__queue)`. The
  sentinel statement `__queue.put(None)` is then appended. A tokenizer
  `TokenError` becomes `ValueError('The script has a syntax error!')`.
- **Reporter** (`QueueStateDataReporter.report`): the first call reads the
  field names from the header line. Every call reads one data line and
  yields one message, `dict(zip(headers, values))` (module **Messages**).
- **Plots** (`queue_consumer`, `create_plots`, `update_plot`): the consumer
  is a fold over the queue contents that stops at the first `None`. It
  chooses the x axis (`Step`, else `Time (ps)`, else an error). It makes one
  scatter plot per other key, coloured round-robin from an 8-colour palette.
  Each value is appended to its series.
- **Session**: the script thread and the consumer thread, joined through
  the sequence of items put on the queue.
- **Units** (`_new_str_`, `_parse`, `UnittedFloat.validate`): how a
  quantity is written as source text, and how typed text is parsed and
  accepted.
- **Config** (openmm_builder/config.py): the Enum choices and their
  defaults, and the handlers that derive `water_active`,
  `stochastic_active` and `nonbonded_cutoff_active`. Also the `dcd_out`
  regular expression.
- **Mustache** and **App** (openmm.py): the section rules of the script
  template, the template itself, and `update_display`. That post-processing
  drops the first rendered line and removes four leading characters from
  every other line.
- **Text**: the Python `str` operations the code relies on. These are
  `split(sep)`, `split(sep, 1)`, `split(None, 1)`, `strip`, `join` and
  substring search.

Python's tokenizer, `float`, `eval`, `str` of a float, simtk unit
arithmetic and compatibility, and pystache's escaping are parameters of the
functions that use them. Executing the rewritten script is also a
parameter: `Session.Execution` records which messages it put and whether
it reached its last statement.

A header/value count mismatch is not an error: `dict(zip(...))`
(openmm_builder/runner.py:75) truncates to the shorter list.

Where the code's own comments and its behaviour differ, the model follows
the behaviour. The docstring of `fix_code` (openmm_builder/runner.py:91-92)
promises the sentinel at the end of the script, and `queue_consumer` only
reaches 'Done' through it. The sentinel is appended to the script's text,
so a script that stops early never puts it, and the window stays at
'Running...'; see Findings.

## Model

| member | source | states |
|---|---|---|
| Rewriter.RewriteToken | openmm_builder/runner.py:96-99 | a token is replaced only when its whole text is `StateDataReporter`; then only its text changes, and it never names the reporter afterwards |
| Rewriter.RewriteTokens | openmm_builder/runner.py:95-99 | the rewritten stream has the same number of tokens, each the rewrite of the token at the same position |
| Rewriter.RewriteStream | openmm_builder/runner.py:95-99 | the generator loop yields exactly the position-wise rewrite |
| Rewriter.RewriteOnlyExactMatches | openmm_builder/runner.py:96-99 | no rewritten token names the reporter; any token not exactly equal to it (a longer identifier, a string or comment) is unchanged; only the text of a token ever changes |
| Rewriter.RewriteIdempotent | openmm_builder/runner.py:96-99 | rewriting twice is rewriting once |
| Rewriter.RewriteConcat | openmm_builder/runner.py:95-99 | the rewrite acts per token, so it commutes with cutting the stream |
| Rewriter.RewriteExample | openmm_builder/runner.py:96-99 | of the reporter name as a token, inside a longer identifier and inside a string literal, only the first is replaced |
| Rewriter.FixCode | openmm_builder/runner.py:94-106 | a `TokenError` becomes `ValueError('The script has a syntax error!')`; other tokenizer errors escape; otherwise the result is the untokenized rewrite followed by `__queue.put(None)` |
| Text.SplitOnce | openmm_builder/runner.py:64 | `split(sep, 1)` gives one piece exactly when `sep` does not occur, else the text before the first occurrence and the rest |
| Text.JoinSplit | openmm_builder/runner.py:65 | joining the pieces of `split(sep)` with `sep` gives back the text |
| Text.SplitJoin | openmm_builder/runner.py:65 | splitting a join on a character that occurs in no piece gives back the pieces |
| Text.Strip | openmm_builder/runner.py:68 | `strip(chars)` leaves an infix that neither starts nor ends with one of `chars`, with only such characters cut off |
| Text.StripSurrounded | openmm_builder/runner.py:68 | `strip` removes exactly a surrounding made of the stripped characters |
| Text.Split | openmm_builder/runner.py:65 | definition only: `split(sep)` cuts at every leftmost, non-overlapping occurrence of `sep`; its contract is stated by Text.SplitPartsAreFree, Text.JoinSplit and Text.SplitJoin |
| Text.SplitPartsAreFree | openmm_builder/runner.py:65 | no piece of `split(sep)` contains `sep` |
| Text.SplitWhitespaceOnce | openmm_builder/units.py:69 | `split(None, 1)` gives at most two pieces; there are none exactly when the text is all whitespace; one piece is the text stripped of whitespace at both ends; two pieces are a whitespace-free first word and the rest, separated by a non-empty whitespace run, that make up the text without its leading whitespace |
| Text.SplitWhitespaceOnceWords | openmm_builder/units.py:69 | two words with whitespace around and between them split into exactly those two words |
| Messages.DictOf | openmm_builder/runner.py:75 | the dict built from the pairs is well formed and has exactly the listed keys |
| Messages.DictOfLastWins | openmm_builder/runner.py:75 | a key holds the value paired with its last occurrence |
| Messages.DictOfDistinctKeys | openmm_builder/runner.py:75 | distinct keys come out in insertion order |
| Messages.FromPairs | openmm_builder/runner.py:75 | `dict(zip(ks, vs))` has exactly the keys among the first `min(len(ks), len(vs))` |
| Messages.FromPairsDistinct | openmm_builder/runner.py:75 | with distinct names the dict holds the first `min` names, each with the value at the same position; the surplus is dropped without error |
| Reporter.HeaderNames | openmm_builder/runner.py:65-68 | one name per field of the stripped header line, each field stripped of surrounding `#`, `"` and `'` |
| Reporter.ParseAll | openmm_builder/runner.py:74 | `map(float, ...)` succeeds exactly when every field converts, giving the values in order; otherwise it reports a field that does not |
| Reporter.DataLine | openmm_builder/runner.py:61-70 | on the first call, the text after the first line break, with the header line before it free of line breaks; on later calls the whole output |
| Reporter.Fields | openmm_builder/runner.py:65-74 | definition only: `line.strip().split(sep)`; Reporter.HeaderNamesOfHeaderLine and Reporter.ReportMessage state what it yields |
| Reporter.NextState | openmm_builder/runner.py:54-70 | after any call the reporter is initialized; a reporter already initialized is unchanged; on the first call the names of the header line are recorded once the output has a line break and the separator is not empty, and otherwise the old names stay |
| Reporter.Report | openmm_builder/runner.py:53-76 | fails exactly when the first output has no line break, the separator is empty, or a data field is not a number, with the error raised first in that order; whether it returns or raises, the reporter is left in its next state; the one message is `dict(zip(headers, values))` |
| Reporter.FirstCallRaisesAfterNames | openmm_builder/runner.py:58-74 | a first call whose data holds a non-number raises, yet leaves the reporter initialized with the header's names |
| Reporter.ReportFirstCall | openmm_builder/runner.py:61-68 | on the first call the names come from the text before the first line break and the values from the text after it |
| Reporter.HeaderNamesOfHeaderLine | openmm_builder/runner.py:64-68 | the header line `#"a","b",...` written by the wrapped reporter parses back to exactly its names, for names free of the separator that do not start or end with `#`, `"` or `'` |
| Reporter.ReportMessage | openmm_builder/runner.py:74-76 | with distinct names, the message holds the first `min(#names, #values)` names in order, each paired with the value at the same position of the data line |
| Plots.ChooseAxis | openmm_builder/runner.py:206-212 | `Step` if present, else `Time (ps)` if present, else none |
| Plots.Others | openmm_builder/runner.py:217 | exactly the keys other than the axis, distinctness kept; when the axis is not a key, all keys in their order; when it is one of distinct keys, the keys are the kept ones in their order with the axis at one position |
| Plots.ColorAt | openmm_builder/runner.py:215-219 | the colour of the `i`-th scatter plot is a palette colour; Plots.ColorsCycle states the cycle |
| Plots.ColorsCycle | openmm_builder/runner.py:215-219 | the first eight plots take the palette in order and colours repeat with period eight |
| Plots.CreatePlots | openmm_builder/runner.py:186-219 | fails with the axis `ValueError` exactly when neither axis key is present; otherwise scatter plot `i` draws the `i`-th non-axis key against the axis in colour `i mod 8`, and every key starts with an empty series |
| Plots.AppendSample | openmm_builder/runner.py:233-235 | each key of the message gets its value appended; the axis, the plots and the other series stay as they were |
| Plots.UpdatePlot | openmm_builder/runner.py:221-235 | plots are created from the message's keys only when none exist yet, then the message is appended |
| Plots.StatusText | openmm_builder/runner.py:173-184 | the window shows 'Done' exactly when the loop ended at the sentinel; while running, and after the thread died, it shows 'Running...' |
| Plots.Consume | openmm_builder/runner.py:169-184 | definition only: `queue_consumer` from its start state over everything put on the queue; Plots.ConsumeFrom, Plots.SentinelStops and Plots.SeriesHoldArrivals state what it does |
| Plots.ConsumeFrom | openmm_builder/runner.py:169-184 | items are taken in order; the loop stops at the first `None` or when `update_plot` raises, and keeps running only if every item was a message; a raise can only come from the very first message, before any plot exists, when its keys hold no axis, and it carries the axis `ValueError` |
| Plots.CrashOnAxislessFirst | openmm_builder/runner.py:206-231 | before any plot exists, a first message with neither `Step` nor `Time (ps)` ends the thread with the axis `ValueError` after taking that one item |
| Plots.ConsumeLoop | openmm_builder/runner.py:175-182 | the `while True` loop computes the same final state as the fold |
| Plots.SentinelStops | openmm_builder/runner.py:175-182 | nothing after the first sentinel is read, and the sentinel always ends the loop |
| Plots.ConsumeCreated | openmm_builder/runner.py:229-235 | once plots exist, every message is appended in order and the loop keeps running |
| Plots.AppendAllSeries | openmm_builder/runner.py:233-235 | appending messages extends each series by exactly that key's values in arrival order |
| Plots.SeriesHoldArrivals | openmm_builder/runner.py:203-235 | after `n` messages with the same keys (one of them an axis key), the plots are those of the first message, and every series, axis included, holds exactly the `n` values in arrival order |
| Session.QueueAsWritten | openmm_builder/runner.py:101-108 | the queue gets nothing when the rewrite fails; otherwise exactly the run's messages in order, followed by a sentinel exactly when the script reaches its end, and nothing else |
| Session.NoSentinelNeverDone | openmm_builder/runner.py:175-184 | without a sentinel the consumer never reaches `Done` and shows "Running..." |
| Session.AsWrittenHangs | openmm_builder/runner.py:101-108 | after a failed rewrite or a script that raises before its end, the consumer never reaches `Done` and the window keeps showing 'Running...' |
| Session.SyntaxErrorLeavesConsumerRunning | openmm_builder/runner.py:103-106 | a script the tokenizer rejects (`TokenError`) puts nothing on the queue, and the consumer stays in its initial state |
| Session.CompileErrorLeavesConsumerRunning | openmm_builder/runner.py:101-108 | a script that tokenizes but does not compile (`x = = 1`) runs no statement, puts nothing on the queue, and the consumer stays in its initial state |
| Session.QueueGuarded | openmm_builder/runner.py:91-92 | corrected queue: the run's messages, then exactly one final sentinel, however the script ended |
| Session.GuardedAlwaysStops | openmm_builder/runner.py:91-92 | with the corrected queue the consumer always stops |
| Session.GuardedAgreesOnFinishedRuns | openmm_builder/runner.py:101 | the correction changes nothing for a script that runs to its end |
| Session.Run | openmm_builder/runner.py:153-184 | a whole run with the corrected queue ends with the consumer stopped |
| Units.NewStr | openmm_builder/units.py:17-21 | the text starts with the value text and ends with the unit name; a unit name starting with `/` follows the value directly, any other follows a `*` |
| Units.NewStrSplits | openmm_builder/units.py:17-21 | when the value text has no `*`, splitting at the first `*` recovers the value text and the unit name |
| Units.Parse | openmm_builder/units.py:60-73 | text that evaluates is its value; otherwise it succeeds exactly when it splits on whitespace into two pieces, a float and an evaluable unit whose product exists, and then the product is the value; any other case is a `TraitError` |
| Units.ParseNumberThenUnit | openmm_builder/units.py:66-70 | `2.0 femtoseconds`-style text parses as the product of its number and its unit |
| Units.ParseOneWordFails | openmm_builder/units.py:69-72 | a single word that does not evaluate is rejected |
| Units.Validate | openmm_builder/units.py:51-58 | the parsed value is returned exactly when it has a unit compatible with the trait's unit; a unit lookup or compatibility test that raises is a `TraitError` |
| Config.WaterActive | openmm_builder/config.py:48-49 | definition only: the water model matters unless the protein name mentions `gbvi` or `obc`; Config.ImplicitSolventProteins states which listed proteins switch it off |
| Config.StochasticActive | openmm_builder/config.py:68-69 | definition only: temperature and friction matter exactly for `Langevin` and `Brownian`; Config.SetKind and Config.SettersKeepFlagsConsistent state how the flag follows it |
| Config.CutoffActive | openmm_builder/config.py:102-103 | definition only: a cutoff matters unless the method is `NoCutoff`; Config.SetNonbondedMethod and Config.SettersKeepFlagsConsistent state how the flag follows it |
| Config.SetProtein | openmm_builder/config.py:31-49 | a name outside the list is rejected; otherwise only the protein and, on a real change, `water_active` are written |
| Config.SetWater | openmm_builder/config.py:40-43 | a name outside the list is rejected; otherwise only the water model changes |
| Config.SetKind | openmm_builder/config.py:63-69 | a kind outside the list is rejected; otherwise only the kind and, on a real change, `stochastic_active` are written |
| Config.SetNonbondedMethod | openmm_builder/config.py:93-103 | a method outside the list is rejected; otherwise only the method and, on a real change, `nonbonded_cutoff_active` are written |
| Config.SetConstraints | openmm_builder/config.py:96 | a value outside the list is rejected; otherwise only the constraints change |
| Config.SettersKeepFlagsConsistent | openmm_builder/config.py:44-103 | each flag that agrees with its value keeps agreeing after any accepted assignment, whether the handler ran or not |
| Config.SetProteins | openmm_builder/config.py:44-49 | after any sequence of protein assignments `water_active` still agrees with the protein and the water model is unchanged; the last accepted name is the protein, even when rejected names follow it; when every name is rejected the form is unchanged |
| Config.DefaultsConsistent | openmm_builder/config.py:31-98 | the default `True` flags are what the handlers give for `amber99sb.xml`, `Langevin` and `PME`, and each Enum default is in its list |
| Config.ImplicitSolventProteins | openmm_builder/config.py:31-49 | of the listed proteins, exactly the eight `gbvi`/`obc` force fields switch the water model off |
| Config.DcdOutMatches | openmm_builder/config.py:117 | matches `.+\.dcd$` from the start: at least one non-line-break character, then `.dcd` at the end or before one final line break |
| Config.SetDcdOut | openmm_builder/config.py:117 | a file name is accepted exactly when it matches the pattern, and only `dcd_out` changes |
| Config.DcdOutExamples | openmm_builder/config.py:117 | `output.dcd` and `run.dcd` plus a final line break are accepted; `.dcd`, `a.dcd.bak` and a name with an inner line break are not |
| Mustache.RenderPart | openmm.py:121-125 | a section renders its body when its key is true and nothing when it is false |
| Mustache.SectionInLine | openmm.py:121-125 | a line with a section renders as the text before it, the body exactly when the key is true, and the text after it |
| Mustache.Render | openmm.py:165 | definition only: `pystache` rendering of the template, its rendered lines joined by line breaks; Mustache.RenderSplitsIntoLines states how the lines come back |
| Mustache.RenderSplitsIntoLines | openmm.py:165-166 | when no value holds a line break, splitting the rendered template on line breaks gives its rendered lines |
| App.Default | openmm.py:106-109 | definition only: the window as constructed, with the input file at the working directory (openmm.py:14), every Enum at its default, the bare `Float` traits at `0.0` and the cutoff at `10` (openmm.py:48-57, 89); App.DefaultWindow states what it shows |
| App.DefaultWindow | openmm.py:13-109 | in the window as constructed every flag agrees with its value, the input file is the working directory, and the displayed `ForceField` call carries both `amber99sb.xml` and the water model `tip3p.xml` |
| App.ValidateIntegrator | openmm.py:81-82 | integrator validation always raises `ValueError('Sorry!')` |
| App.SetProtein | openmm.py:34-35 | the window's protein choice follows the `Forcefield` rule and touches no other form |
| App.SetKind | openmm.py:52-53 | the window's integrator kind follows the `Integrator` rule and touches no other form |
| App.SetNonbondedMethod | openmm.py:94-95 | the window's nonbonded method follows the `System` rule and touches no other form |
| App.ForcefieldLineRenders | openmm.py:121 | the water force field argument appears exactly when `water_active` |
| App.SystemArgsLineRenders | openmm.py:123-124 | `nonbondedCutoff=` appears exactly when `nonbonded_cutoff_active` |
| App.IntegratorLineRenders | openmm.py:125 | temperature and friction appear exactly when `stochastic_active` |
| App.Display | openmm.py:164-166 | definition only: `update_display`'s post-processing of the rendered text; App.DisplayLines and App.DisplayedScript state what it gives |
| App.DisplayOf | openmm.py:164-166 | definition only: the text `self.display` holds for the forms, the rendered template passed through App.Display; App.DisplayedScript and App.DisplayedForcefield state it line by line |
| App.DropFour | openmm.py:166 | `line[4:]` removes `min(4, len)` leading characters and keeps the rest |
| App.DisplayLines | openmm.py:166 | the display has one line fewer than the rendered text, each the next line without its first four characters; one-line text displays as nothing |
| App.DedentExact | openmm.py:166 | a line indented by four spaces loses exactly that indentation |
| App.DisplayedScript | openmm.py:114-166 | the displayed script is the 20 template lines after the first, rendered and moved four columns left |
| App.DisplayedForcefield | openmm.py:114-166 | the seventh displayed line is the `ForceField` call without indentation, with the water argument exactly when `water_active` |

## Left out

- Threads, `Queue`, and the `get_nowait`/`sleep(0.1)` polling: the queue is the finite sequence of every item put on it, read in FIFO order.
- Executing the script (`exec`) and `eval`: these are parameters (`Session.Execution`, `Units.Parse`'s `eval`).
- The tokenizer and untokenizer: these are parameters. Only the token map is modelled.
- `float`, numpy, and simtk quantity arithmetic and compatibility: these are parameters, and values are `real`.
- chaco plot objects, traitsui views, and the `on_trait_change` wiring that re-renders the display: the display is a function of the forms (`App.DisplayOf`).
- pystache beyond variables and sections: escaping is an abstract function, and tag names are a datatype of the template's own tags.
- The `Quantity.__str__` monkey-patch and the `fs`/`ps`/`nm` unit aliases: these are global mutations, so only the formatting function is modelled.
- The null-file handle given to the wrapped reporter, and the wrapped reporter's own formatting: its output for a call is a parameter. `Reporter.HeaderLine` describes the header line it writes.
- The `InputFile` and `Simulation` forms, and the `Int` and `Bool` traits: they have no rules beyond their type. The input file is a string in `App.App`.
- Direct assignment of a flag: `water_active` and the other flags are ordinary `Bool` traits that could be set by hand. The model only assigns them through their handlers.
- setup.py: it is packaging only.
- Plots.AppendSample: a key absent from the plot data starts its series at `[v]`. In the source, `get_data` returns `None` there and `np.r_[None, v]` gives `[None, v]`. This only arises for a message with keys the first one lacked.
- Messages.DictOf: keys are kept in first-insertion order. Python 2 dict iteration order, which fixes the order of the scatter plots, is unspecified.
- Reporter.Report: `os.linesep` is fixed to `"\n"`, the POSIX value.
- Reporter.Report: exceptions raised by the wrapped `StateDataReporter.report` itself (runner.py:58), such as its check for a NaN or infinite energy, are not modelled: its output is a parameter and every call is taken to produce one. When it raises after marking itself initialized on the first call, `_headers` stays empty and every later message is `{}`; Reporter.NextState's "after any call the reporter is initialized" assumes the wrapped call returned.
- Text.SplitWhitespaceOnce: splits on the whitespace of Python 2 byte strings (`str`). Text typed into a form can reach `_parse` as `unicode`. Its `split(None, 1)` also splits on characters such as U+001C to U+001F, U+0085, U+00A0, U+2000 to U+200A and U+3000. So `2.0\u00a0fs` parses in the program but is read as a single word here.
- Units.Parse: a failed `eval` is one `None` outcome, which stands for an exception derived from `Exception`, as the first `except Exception` catches (units.py:63); the fallback's bare `except:` catches anything. A `SystemExit` or `KeyboardInterrupt` raised by the first `eval` (the text `exit()`, say) escapes `_parse`, and likewise escapes `validate`'s `except Exception`; that escape is not modelled.

## Findings

| source | as written | input that shows it | evidently intended | confidence | as-written member | corrected member |
|---|---|---|---|---|---|---|
| openmm_builder/runner.py:101-108 | the end-of-stream sentinel is appended to the script's text, so it is put only when the script runs to its last statement | a script the tokenizer rejects (an unclosed bracket: `fix_code` raises a `TokenError`, nothing is put), a script that tokenizes but does not compile (`x = = 1`: `exec` fails before any statement runs, nothing is put; a last line without a line break gets no NEWLINE token from Python 2.7's tokenizer, so the sentinel is glued onto it and compiling fails the same way), or one that raises midway, e.g. a reporter whose output has a non-numeric field: the queue never holds `None`, so `queue_consumer` never reaches 'Done' and the window keeps showing "Running..." | the docstring of `fix_code` (lines 91-92) promises the sentinel at the end of the script, and `queue_consumer` (lines 175-184) only reaches 'Done' through it, so the sentinel is needed however the script ends, e.g. from a `finally` that puts `None` | medium, not executed | Session.AsWrittenHangs | Session.GuardedAlwaysStops |

=== FILE: app.dfy ===
/** The script builder window of openmm.py: four option forms, the
    Mustache template of the OpenMM script they fill in, and the display
    text, which is the rendered template with its first line dropped and
    four columns of indentation removed from every other line. The forms
    follow the same rules as those of openmm_builder/config.py, so they are
    the records of `Config` with plain floats for the numeric fields. */
module App {
  import opened Wrappers
  import Text
  import Config
  import opened Mustache

  datatype App = App(inputFile: string,
                     forcefield: Config.Forcefield,
                     integrator: Config.Integrator<real>,
                     system: Config.System<real>)

  /** The window as constructed: the input file defaults to the absolute
      path of the working directory `cwd`, each float to `0.0` except the
      cutoff, which is `10`. */
  function Default(cwd: string): App {
    App(cwd, Config.DefaultForcefield, Config.DefaultIntegrator(0.0, 0.0, 0.0), Config.DefaultSystem(10.0))
  }

  /** `Integrator.validate`: it raises `ValueError('Sorry!')` whatever the
      form holds. */
  function ValidateIntegrator(i: Config.Integrator<real>): (r: Result<(), string>)
    ensures r.Failure? && r.error == "Sorry!"
  {
    Failure("Sorry!")
  }

  /** Choosing a protein force field in the window: the `Forcefield` form's
      rule, the other forms untouched. */
  function SetProtein(app: App, p: string): (r: Result<App, Config.TraitError>)
    ensures r.Failure? <==> p !in Config.ProteinChoices
    ensures r.Success? ==> r.value == app.(forcefield := Config.SetProtein(app.forcefield, p).value)
    ensures r.Success? && Config.ForcefieldConsistent(app.forcefield) ==>
              r.value.forcefield.waterActive == Config.WaterActive(p)
  {
    var f :- Config.SetProtein(app.forcefield, p);
    Success(app.(forcefield := f))
  }

  /** Choosing an integrator kind in the window. */
  function SetKind(app: App, k: string): (r: Result<App, Config.TraitError>)
    ensures r.Failure? <==> k !in Config.KindChoices
    ensures r.Success? ==> r.value == app.(integrator := Config.SetKind(app.integrator, k).value)
    ensures r.Success? && Config.IntegratorConsistent(app.integrator) ==>
              r.value.integrator.stochasticActive == Config.StochasticActive(k)
  {
    var i :- Config.SetKind(app.integrator, k);
    Success(app.(integrator := i))
  }

  /** Choosing a nonbonded method in the window. */
  function SetNonbondedMethod(app: App, m: string): (r: Result<App, Config.TraitError>)
    ensures r.Failure? <==> m !in Config.NonbondedChoices
    ensures r.Success? ==> r.value == app.(system := Config.SetNonbondedMethod(app.system, m).value)
    ensures r.Success? && Config.SystemConsistent(app.system) ==>
              r.value.system.nonbondedCutoffActive == Config.CutoffActive(m)
  {
    var s :- Config.SetNonbondedMethod(app.system, m);
    Success(app.(system := s))
  }

  /** The tags of the template, one per dotted name it uses. */
  datatype Key =
    | InputFile | Protein | Water | WaterActive
    | NonbondedMethod | NonbondedCutoff | Constraints | RigidWater | CutoffActive
    | Kind | Temperature | Friction | Timestep | StochasticActive

  function L(t: LineText): Part<Key> { Plain(Lit(t)) }
  function V(k: Key): Part<Key> { Plain(Var(k)) }

  const WaterArgs: seq<Atom<Key>> := [Lit(", '"), Var(Water), Lit("'")]
  const ForcefieldHead: seq<Part<Key>> := [L("forcefield = ForceField('"), V(Protein), L("'")]
  const ForcefieldCall: seq<Part<Key>> := ForcefieldHead + [Section(WaterActive, WaterArgs)] + [L(")")]
  const ForcefieldLine: seq<Part<Key>> := [L("    ")] + ForcefieldCall

  const CutoffArgs: seq<Atom<Key>> := [Lit("nonbondedCutoff="), Var(NonbondedCutoff), Lit(",")]
  const SystemArgsTail: seq<Part<Key>> :=
    [L(" constraints="), V(Constraints), L(", rigidWater="), V(RigidWater), L(")")]
  const SystemArgsLine: seq<Part<Key>> := [L("        ")] + [Section(CutoffActive, CutoffArgs)] + SystemArgsTail

  const StochasticArgs: seq<Atom<Key>> := [Var(Temperature), Lit(", "), Var(Friction), Lit(", ")]
  const IntegratorHead: seq<Part<Key>> := [L("    integrator = "), V(Kind), L("Integrator(")]
  const IntegratorTail: seq<Part<Key>> := [V(Timestep), L(")")]
  const IntegratorLine: seq<Part<Key>> := IntegratorHead + [Section(StochasticActive, StochasticArgs)] + IntegratorTail

  /** The tag-free lines of the template, each cut into short literal
      pieces that render one after another; the longer pieces are named. */
  const ImportStar: LineText := "import *"
  const FromApp: LineText := "    from simtk.openmm.app "
  const FromOpenMM: LineText := "    from simtk.openmm "
  const SystemAssign: LineText := "    system = forcefield."
  const CreateSystemCall: LineText := "createSystem(pdb.topology, "
  const SimulationAssign: LineText := "    simulation = Simulation("
  const SimulationArgs: LineText := "pdb.topology, system, "
  const SimulationContext: LineText := "    simulation.context."
  const SimulationDot: LineText := "    simulation."
  const MinimizeCall: LineText := "minimizeEnergy("
  const PositionsAssign: LineText := "    positions = simulation."
  const GetState: LineText := "context.getState("
  const GetPositionsArg: LineText := "getPositions=True)."
  const WriteFile: LineText := "    PDBFile.writeFile("
  const SimulationTopology: LineText := "simulation.topology, "
  const OpenOutput: LineText := "positions, open('output."

  const ImportApp: seq<Part<Key>> := [L(FromApp), L(ImportStar)]
  const ImportOpenMM: seq<Part<Key>> := [L(FromOpenMM), L(ImportStar)]
  const ImportUnit: seq<Part<Key>> := [L("    from simtk.unit import *")]
  const PrintLoading: seq<Part<Key>> := [L("    print('Loading...')")]
  const CreateSystem: seq<Part<Key>> := [L(SystemAssign), L(CreateSystemCall), L("nonbondedMethod=")]
  const SimulationNew: seq<Part<Key>> := [L(SimulationAssign), L(SimulationArgs), L("integrator)")]
  const SetPositions: seq<Part<Key>> := [L(SimulationContext), L("setPositions(pdb.positions)")]
  const Minimize: seq<Part<Key>> := [L(SimulationDot), L(MinimizeCall), L("maxIterations=100)")]
  const PrintSaving: seq<Part<Key>> := [L("    print('Saving...')")]
  const GetPositions: seq<Part<Key>> := [L(PositionsAssign), L(GetState), L(GetPositionsArg), L("getPositions()")]
  const WritePdb: seq<Part<Key>> := [L(WriteFile), L(SimulationTopology), L(OpenOutput), L("pdb', 'w'))")]
  const PrintDone: seq<Part<Key>> := [L("    print('Done')")]

  /** The template, line by line: it opens with an empty line (the text
      right after the opening quotes) and closes with the four spaces before
      the closing quotes. */
  const Template: seq<seq<Part<Key>>> :=
    [[],
     ImportApp,
     ImportOpenMM,
     ImportUnit,
     [],
     PrintLoading,
     [L("    pdb = PDBFile('"), V(InputFile), L("')")],
     ForcefieldLine,
     [],
     CreateSystem + [V(NonbondedMethod), L(",")],
     SystemArgsLine,
     IntegratorLine,
     [],
     SimulationNew,
     SetPositions,
     Minimize,
     PrintSaving,
     GetPositions,
     WritePdb,
     PrintDone,
     [L("    ")]]

  /** `str` of a Python bool. */
  function PyBool(b: bool): string {
    if b then "True" else "False"
  }

  /** The text of each variable tag for the window; `show` is `str` on a float. */
  function VarOf(app: App, show: real -> string, k: Key): Option<string> {
    match k
    case InputFile => Some(app.inputFile)
    case Protein => Some(app.forcefield.protein)
    case Water => Some(app.forcefield.water)
    case NonbondedMethod => Some(app.system.nonbondedMethod)
    case NonbondedCutoff => Some(show(app.system.nonbondedCutoff))
    case Constraints => Some(app.system.constraints)
    case RigidWater => Some(PyBool(app.system.rigidWater))
    case Kind => Some(app.integrator.kind)
    case Temperature => Some(show(app.integrator.temperature))
    case Friction => Some(show(app.integrator.friction))
    case Timestep => Some(show(app.integrator.timestep))
    case _ => None
  }

  /** The value of each section key for the window. */
  function FlagOf(app: App, k: Key): Option<bool> {
    match k
    case WaterActive => Some(app.forcefield.waterActive)
    case CutoffActive => Some(app.system.nonbondedCutoffActive)
    case StochasticActive => Some(app.integrator.stochasticActive)
    case _ => None
  }

  /** What the template's tags see of the window; `escape` is the
      renderer's escaping of variable text. */
  function ContextOf(app: App, show: real -> string, escape: string -> string): Context<Key> {
    Context(k => VarOf(app, show, k), k => FlagOf(app, k), escape)
  }

  /** The water force field is passed to `ForceField` exactly when the
      protein force field is not an implicit-solvent one. */
  lemma ForcefieldLineRenders(app: App, show: real -> string, escape: string -> string)
    ensures RenderLine(ForcefieldLine, ContextOf(app, show, escape))
            == "    " + RenderLine(ForcefieldCall, ContextOf(app, show, escape))
    ensures RenderLine(ForcefieldCall, ContextOf(app, show, escape))
            == "forcefield = ForceField('" + escape(app.forcefield.protein) + "'"
               + (if app.forcefield.waterActive then ", '" + escape(app.forcefield.water) + "'" else "")
               + ")"
  {
    var ctx := ContextOf(app, show, escape);
    RenderLineConcat([L("    ")], ForcefieldCall, ctx);
    PlainText("    ", ctx);
    SectionInLine(ForcefieldHead, WaterActive, WaterArgs, [L(")")], ctx);
    ThreeParts(L("forcefield = ForceField('"), V(Protein), L("'"), ctx);
    ThreeAtoms(Lit(", '"), Var(Water), Lit("'"), ctx);
    PlainText(")", ctx);
  }

  /** `nonbondedCutoff=` is passed exactly when the method has a cutoff. */
  lemma SystemArgsLineRenders(app: App, show: real -> string, escape: string -> string)
    ensures RenderLine(SystemArgsLine, ContextOf(app, show, escape))
            == "        "
               + (if app.system.nonbondedCutoffActive
                  then "nonbondedCutoff=" + escape(show(app.system.nonbondedCutoff)) + ","
                  else "")
               + (" constraints=" + escape(app.system.constraints)
                  + ", rigidWater=" + escape(PyBool(app.system.rigidWater)) + ")")
  {
    var ctx := ContextOf(app, show, escape);
    SectionInLine([L("        ")], CutoffActive, CutoffArgs, SystemArgsTail, ctx);
    PlainText("        ", ctx);
    CutoffSectionRenders(app, show, escape);
    SystemArgsTailRenders(app, show, escape);
  }

  /** The cutoff section of the `createSystem` arguments. */
  lemma CutoffSectionRenders(app: App, show: real -> string, escape: string -> string)
    ensures var ctx := ContextOf(app, show, escape);
            (if Flag(ctx, CutoffActive) then RenderAtoms(CutoffArgs, ctx) else "")
            == (if app.system.nonbondedCutoffActive
                then "nonbondedCutoff=" + escape(show(app.system.nonbondedCutoff)) + ","
                else "")
  {
    var ctx := ContextOf(app, show, escape);
    assert Flag(ctx, CutoffActive) == app.system.nonbondedCutoffActive;
    assert Lookup(ctx, NonbondedCutoff) == show(app.system.nonbondedCutoff);
    ThreeAtoms(Lit("nonbondedCutoff="), Var(NonbondedCutoff), Lit(","), ctx);
  }

  /** The arguments that follow the optional cutoff. */
  lemma SystemArgsTailRenders(app: App, show: real -> string, escape: string -> string)
    ensures RenderLine(SystemArgsTail, ContextOf(app, show, escape))
            == " constraints=" + escape(app.system.constraints)
               + ", rigidWater=" + escape(PyBool(app.system.rigidWater)) + ")"
  {
    var ctx := ContextOf(app, show, escape);
    var head := [L(" constraints="), V(Constraints)];
    var tail := [L(", rigidWater="), V(RigidWater), L(")")];
    assert SystemArgsTail == head + tail;
    RenderLineConcat(head, tail, ctx);
    TwoParts(L(" constraints="), V(Constraints), ctx);
    ThreeParts(L(", rigidWater="), V(RigidWater), L(")"), ctx);
  }

  /** Temperature and friction are passed exactly to a stochastic integrator. */
  lemma IntegratorLineRenders(app: App, show: real -> string, escape: string -> string)
    ensures RenderLine(IntegratorLine, ContextOf(app, show, escape))
            == "    integrator = " + escape(app.integrator.kind) + "Integrator("
               + (if app.integrator.stochasticActive
                  then escape(show(app.integrator.temperature)) + ", " + escape(show(app.integrator.friction)) + ", "
                  else "")
               + escape(show(app.integrator.timestep)) + ")"
  {
    var ctx := ContextOf(app, show, escape);
    SectionInLine(IntegratorHead, StochasticActive, StochasticArgs, IntegratorTail, ctx);
    ThreeParts(L("    integrator = "), V(Kind), L("Integrator("), ctx);
    FourAtoms(Var(Temperature), Lit(", "), Var(Friction), Lit(", "), ctx);
    TwoParts(V(Timestep), L(")"), ctx);
  }

  /** `line[4:]`: the line without its first four characters, or empty when
      it is shorter. */
  function DropFour(line: string): (r: string)
    ensures |r| == if |line| < 4 then 0 else |line| - 4
    ensures r == line[|line| - |r|..]
  {
    if |line| < 4 then "" else line[4..]
  }

  function DropFours(lines: seq<string>): (rs: seq<string>)
    ensures |rs| == |lines|
    ensures forall i :: 0 <= i < |lines| ==> rs[i] == DropFour(lines[i])
  {
    seq(|lines|, i requires 0 <= i < |lines| => DropFour(lines[i]))
  }

  /** `update_display`'s post-processing of the rendered text. */
  function Display(contents: string): string {
    Text.Join("\n", DropFours(Text.Split(contents, "\n")[1..]))
  }

  /** A piece of a split on line breaks holds no line break. */
  lemma SplitLinesHaveNoBreak(s: string, k: nat)
    requires k < |Text.Split(s, "\n")|
    ensures '\n' !in Text.Split(s, "\n")[k]
  {
    var line := Text.Split(s, "\n")[k];
    Text.SplitPartsAreFree(s, "\n");
    if '\n' in line {
      var j :| 0 <= j < |line| && line[j] == '\n';
      assert line[j..j + 1] == "\n";
      assert Text.OccursAt(line, "\n", j);
    }
  }

  /** The display has one line fewer than the rendered text: each is the
      next rendered line without its first four characters. A text of one
      line displays as nothing. */
  lemma DisplayLines(contents: string)
    ensures |Text.Split(contents, "\n")| == 1 ==> Display(contents) == ""
    ensures |Text.Split(contents, "\n")| >= 2 ==>
              Text.Split(Display(contents), "\n") == DropFours(Text.Split(contents, "\n")[1..])
  {
    var lines := Text.Split(contents, "\n");
    if |lines| >= 2 {
      var ds := DropFours(lines[1..]);
      forall k | 0 <= k < |ds|
        ensures '\n' !in ds[k]
      {
        SplitLinesHaveNoBreak(contents, k + 1);
        assert ds[k] == DropFour(lines[k + 1]);
      }
      Text.SplitJoin(ds, '\n');
    }
  }

  /** A line indented by at least four spaces loses exactly that much. */
  lemma DedentExact(line: string, rest: string)
    requires line == "    " + rest
    ensures DropFour(line) == rest
  {
  }

  /** The text the window shows for the forms. */
  function DisplayOf(app: App, show: real -> string, escape: string -> string): string {
    Display(Render(Template, ContextOf(app, show, escape)))
  }

  /** The window as constructed shows a consistent script: every flag agrees
      with its value, and the displayed `ForceField` call passes both the
      default protein force field and the default water model, since
      `amber99sb.xml` is not an implicit-solvent force field. */
  lemma DefaultWindow(cwd: string, show: real -> string, escape: string -> string)
    requires VarsOneLine(ContextOf(Default(cwd), show, escape))
    ensures Config.ForcefieldConsistent(Default(cwd).forcefield)
    ensures Config.IntegratorConsistent(Default(cwd).integrator)
    ensures Config.SystemConsistent(Default(cwd).system)
    ensures Default(cwd).inputFile == cwd
    ensures |Text.Split(DisplayOf(Default(cwd), show, escape), "\n")| == 20
    ensures Text.Split(DisplayOf(Default(cwd), show, escape), "\n")[6]
            == "forcefield = ForceField('" + escape(Config.DefaultProtein) + "'"
               + (", '" + escape(Config.DefaultWater) + "'") + ")"
  {
    Config.DefaultsConsistent(0.0, 0.0, 0.0, 10.0);
    DisplayedForcefield(Default(cwd), show, escape);
  }

  /** The displayed script, line by line, when no value brings in a line
      break: the twenty template lines after the first, rendered and each
      moved four columns left. */
  lemma DisplayedScript(app: App, show: real -> string, escape: string -> string)
    requires VarsOneLine(ContextOf(app, show, escape))
    ensures var lines := Text.Split(DisplayOf(app, show, escape), "\n");
            && |lines| == |Template| - 1
            && forall k :: 0 <= k < |lines| ==> lines[k] == DropFour(RenderLine(Template[k + 1], ContextOf(app, show, escape)))
  {
    var ctx := ContextOf(app, show, escape);
    RenderSplitsIntoLines(Template, ctx);
    var contents := Render(Template, ctx);
    DisplayLines(contents);
  }

  /** In particular the displayed `ForceField` call sits on the seventh line
      and has lost exactly its indentation. */
  lemma DisplayedForcefield(app: App, show: real -> string, escape: string -> string)
    requires VarsOneLine(ContextOf(app, show, escape))
    ensures |Text.Split(DisplayOf(app, show, escape), "\n")| == 20
    ensures Text.Split(DisplayOf(app, show, escape), "\n")[6]
            == "forcefield = ForceField('" + escape(app.forcefield.protein) + "'"
               + (if app.forcefield.waterActive then ", '" + escape(app.forcefield.water) + "'" else "")
               + ")"
  {
    var ctx := ContextOf(app, show, escape);
    var lines := Text.Split(DisplayOf(app, show, escape), "\n");
    DisplayedScript(app, show, escape);
    assert |Template| == 21 && Template[7] == ForcefieldLine;
    assert lines[6] == DropFour(RenderLine(ForcefieldLine, ctx));
    ForcefieldLineRenders(app, show, escape);
    DedentExact(RenderLine(ForcefieldLine, ctx), RenderLine(ForcefieldCall, ctx));
  }
}

=== FILE: config.dfy ===
/** The option forms of openmm_builder/config.py (the same rules recur in
    openmm.py). Each form is an immutable record; an Enum trait accepts only
    a member of its list, and the static `_x_changed` handlers recompute a
    visibility flag from the new value. A handler runs only when the
    assigned value differs from the old one, as traits notifies changes only.
    The unit-carrying values are a type parameter `Q`: `Units.Quantity` in
    config.py, a plain float in openmm.py. */
module Config {
  import opened Wrappers
  import Text

  /** The `TraitError` raised for a value outside an Enum's list or not
      matching a Regex trait: the trait's name and the rejected value. */
  datatype TraitError = TraitError(name: string, value: string)

  const ProteinChoices: seq<string> :=
    ["amber03.xml", "amber03_gbvi.xml", "amber03_obc.xml", "amber10.xml",
     "amber10_gbvi.xml", "amber10_obc.xml", "amber96.xml", "amber96_gbvi.xml",
     "amber96_obc.xml", "amber99_gbvi.xml", "amber99_obc.xml", "amber99sb.xml",
     "amber99sbildn.xml", "amber99sbnmr.xml"]
  const WaterChoices: seq<string> := ["spce.xml", "tip3p.xml", "tip4pew.xml", "tip5p.xml"]
  const KindChoices: seq<string> := ["Verlet", "Langevin", "Brownian"]
  const NonbondedChoices: seq<string> := ["NoCutoff", "CutoffNonPeriodic", "CutoffPeriodic", "Ewald", "PME"]
  const ConstraintChoices: seq<string> := ["None", "HBonds", "HAngles", "AllBonds"]

  const DefaultProtein: string := "amber99sb.xml"
  const DefaultWater: string := "tip3p.xml"
  const DefaultKind: string := "Langevin"
  const DefaultNonbonded: string := "PME"
  const DefaultConstraints: string := "None"
  const DefaultDcdOut: string := "output.dcd"

  /** `_protein_changed`: the water model matters unless the protein force
      field is an implicit-solvent one (its name mentions `gbvi` or `obc`). */
  predicate WaterActive(protein: string) {
    !(Text.Contains(protein, "gbvi") || Text.Contains(protein, "obc"))
  }

  /** `_kind_changed`: friction and temperature matter for the stochastic
      integrators only. */
  predicate StochasticActive(kind: string) {
    kind in ["Langevin", "Brownian"]
  }

  /** `_nonbonded_method_changed`: a cutoff matters unless there is none. */
  predicate CutoffActive(nonbondedMethod: string) {
    nonbondedMethod != "NoCutoff"
  }

  datatype Forcefield = Forcefield(protein: string, water: string, waterActive: bool)

  datatype Integrator<Q> = Integrator(timestep: Q, kind: string, stochasticActive: bool,
                                      temperature: Q, friction: Q)

  datatype System<Q> = System(nonbondedMethod: string, nonbondedCutoff: Q, constraints: string,
                              rigidWater: bool, nonbondedCutoffActive: bool)

  datatype Reporters = Reporters(dcdActive: bool, dcdFreq: int, dcdOut: string,
                                 statedataActive: bool, statedataFreq: int)

  /** The forms as constructed: each Enum at its default, every flag `True`. */
  const DefaultForcefield: Forcefield := Forcefield(DefaultProtein, DefaultWater, true)

  function DefaultIntegrator<Q>(timestep: Q, temperature: Q, friction: Q): Integrator<Q> {
    Integrator(timestep, DefaultKind, true, temperature, friction)
  }

  function DefaultSystem<Q>(cutoff: Q): System<Q> {
    System(DefaultNonbonded, cutoff, DefaultConstraints, true, true)
  }

  /** Each flag agrees with the value it is derived from. */
  predicate ForcefieldConsistent(f: Forcefield) {
    f.waterActive == WaterActive(f.protein)
  }

  predicate IntegratorConsistent<Q>(i: Integrator<Q>) {
    i.stochasticActive == StochasticActive(i.kind)
  }

  predicate SystemConsistent<Q>(s: System<Q>) {
    s.nonbondedCutoffActive == CutoffActive(s.nonbondedMethod)
  }

  /** Assigning `protein`: rejected outside the list; otherwise only the
      protein and, on a real change, `water_active` are written. */
  function SetProtein(f: Forcefield, p: string): (r: Result<Forcefield, TraitError>)
    ensures r.Failure? <==> p !in ProteinChoices
    ensures r.Failure? ==> r.error == TraitError("protein", p)
    ensures r.Success? ==> r.value.protein == p && r.value.water == f.water
    ensures r.Success? && p != f.protein ==> r.value.waterActive == WaterActive(p)
    ensures r.Success? && p == f.protein ==> r.value == f
  {
    if p !in ProteinChoices then Failure(TraitError("protein", p))
    else if p == f.protein then Success(f)
    else Success(f.(protein := p, waterActive := WaterActive(p)))
  }

  /** Assigning `water`, which has no handler. */
  function SetWater(f: Forcefield, w: string): (r: Result<Forcefield, TraitError>)
    ensures r.Failure? <==> w !in WaterChoices
    ensures r.Failure? ==> r.error == TraitError("water", w)
    ensures r.Success? ==> r.value.water == w && r.value.protein == f.protein && r.value.waterActive == f.waterActive
  {
    if w !in WaterChoices then Failure(TraitError("water", w)) else Success(f.(water := w))
  }

  /** Assigning `kind`: only the kind and, on a real change,
      `stochastic_active` are written. */
  function SetKind<Q>(i: Integrator<Q>, k: string): (r: Result<Integrator<Q>, TraitError>)
    ensures r.Failure? <==> k !in KindChoices
    ensures r.Failure? ==> r.error == TraitError("kind", k)
    ensures r.Success? ==> r.value.kind == k
    ensures r.Success? ==> r.value.(kind := i.kind, stochasticActive := i.stochasticActive) == i
    ensures r.Success? && k != i.kind ==> r.value.stochasticActive == StochasticActive(k)
    ensures r.Success? && k == i.kind ==> r.value == i
  {
    if k !in KindChoices then Failure(TraitError("kind", k))
    else if k == i.kind then Success(i)
    else Success(i.(kind := k, stochasticActive := StochasticActive(k)))
  }

  /** Assigning `nonbonded_method`: only the method and, on a real change,
      `nonbonded_cutoff_active` are written. */
  function SetNonbondedMethod<Q>(s: System<Q>, m: string): (r: Result<System<Q>, TraitError>)
    ensures r.Failure? <==> m !in NonbondedChoices
    ensures r.Failure? ==> r.error == TraitError("nonbonded_method", m)
    ensures r.Success? ==> r.value.nonbondedMethod == m
    ensures r.Success? ==> r.value.(nonbondedMethod := s.nonbondedMethod, nonbondedCutoffActive := s.nonbondedCutoffActive) == s
    ensures r.Success? && m != s.nonbondedMethod ==> r.value.nonbondedCutoffActive == CutoffActive(m)
    ensures r.Success? && m == s.nonbondedMethod ==> r.value == s
  {
    if m !in NonbondedChoices then Failure(TraitError("nonbonded_method", m))
    else if m == s.nonbondedMethod then Success(s)
    else Success(s.(nonbondedMethod := m, nonbondedCutoffActive := CutoffActive(m)))
  }

  /** Assigning `constraints`, which has no handler. */
  function SetConstraints<Q>(s: System<Q>, c: string): (r: Result<System<Q>, TraitError>)
    ensures r.Failure? <==> c !in ConstraintChoices
    ensures r.Failure? ==> r.error == TraitError("constraints", c)
    ensures r.Success? ==> r.value == s.(constraints := c)
  {
    if c !in ConstraintChoices then Failure(TraitError("constraints", c)) else Success(s.(constraints := c))
  }

  /** A flag that agrees with its value keeps agreeing after any accepted
      assignment, whether or not the handler ran. */
  lemma SettersKeepFlagsConsistent<Q>(f: Forcefield, p: string, w: string,
                                      i: Integrator<Q>, k: string,
                                      s: System<Q>, m: string, c: string)
    requires ForcefieldConsistent(f) && IntegratorConsistent(i) && SystemConsistent(s)
    ensures SetProtein(f, p).Success? ==> ForcefieldConsistent(SetProtein(f, p).value)
    ensures SetWater(f, w).Success? ==> ForcefieldConsistent(SetWater(f, w).value)
    ensures SetKind(i, k).Success? ==> IntegratorConsistent(SetKind(i, k).value)
    ensures SetNonbondedMethod(s, m).Success? ==> SystemConsistent(SetNonbondedMethod(s, m).value)
    ensures SetConstraints(s, c).Success? ==> SystemConsistent(SetConstraints(s, c).value)
  {
  }

  /** Whatever sequence of protein names is assigned, the form that results
      (or the last one before a rejected name) keeps a consistent flag. */
  function SetProteins(f: Forcefield, ps: seq<string>): (r: Forcefield)
    requires ForcefieldConsistent(f)
    ensures ForcefieldConsistent(r)
    ensures r.water == f.water
    ensures |ps| > 0 && ps[|ps| - 1] in ProteinChoices ==> r.protein == ps[|ps| - 1]
    ensures (forall k :: 0 <= k < |ps| ==> ps[k] !in ProteinChoices) ==> r == f
    ensures forall j :: LastAccepted(ps, j) ==> r.protein == ps[j]
    decreases |ps|
  {
    if |ps| == 0 then f
    else
      var g := match SetProtein(f, ps[0]) case Success(g) => g case Failure(_) => f;
      assert ps[1..] == [] ==> |ps| == 1;
      var r := SetProteins(g, ps[1..]);
      assert |ps| > 1 ==> ps[1..][|ps[1..]| - 1] == ps[|ps| - 1];
      assert forall k :: 1 <= k < |ps| ==> ps[k] == ps[1..][k - 1];
      assert forall j :: LastAccepted(ps, j) ==> r.protein == ps[j] by {
        forall j | LastAccepted(ps, j)
          ensures r.protein == ps[j]
        {
          if j == 0 {
            assert forall k :: 0 <= k < |ps[1..]| ==> ps[1..][k] !in ProteinChoices;
          } else {
            assert LastAccepted(ps[1..], j - 1);
          }
        }
      }
      r
  }

  /** `ps[j]` is the last name of `ps` that the Enum accepts. */
  predicate LastAccepted(ps: seq<string>, j: int) {
    && 0 <= j < |ps| && ps[j] in ProteinChoices
    && forall k :: j < k < |ps| ==> ps[k] !in ProteinChoices
  }

  /** The default flags are what the handlers would compute for the default
      values, and every Enum default is one of its choices. */
  lemma DefaultsConsistent<Q>(timestep: Q, temperature: Q, friction: Q, cutoff: Q)
    ensures ForcefieldConsistent(DefaultForcefield)
    ensures IntegratorConsistent(DefaultIntegrator(timestep, temperature, friction))
    ensures SystemConsistent(DefaultSystem(cutoff))
    ensures DefaultProtein in ProteinChoices && DefaultWater in WaterChoices
    ensures DefaultKind in KindChoices && DefaultNonbonded in NonbondedChoices
    ensures DefaultConstraints in ConstraintChoices
  {
    NoImplicitMarker(DefaultProtein);
  }

  /** Exactly the eight implicit-solvent force fields of the list switch the
      water model off. */
  lemma ImplicitSolventProteins(p: string)
    requires p in ProteinChoices
    ensures !WaterActive(p) <==> p in ["amber03_gbvi.xml", "amber03_obc.xml", "amber10_gbvi.xml",
                                       "amber10_obc.xml", "amber96_gbvi.xml", "amber96_obc.xml",
                                       "amber99_gbvi.xml", "amber99_obc.xml"]
  {
    if p in ["amber03_gbvi.xml", "amber10_gbvi.xml", "amber96_gbvi.xml", "amber99_gbvi.xml"] {
      assert Text.OccursAt(p, "gbvi", 8);
    } else if p in ["amber03_obc.xml", "amber10_obc.xml", "amber96_obc.xml", "amber99_obc.xml"] {
      assert Text.OccursAt(p, "obc", 8);
    } else {
      NoImplicitMarker(p);
    }
  }

  /** The explicit-solvent names contain neither a `g` nor an `o`, so
      neither marker occurs in them. */
  lemma NoImplicitMarker(p: string)
    requires p in ["amber03.xml", "amber10.xml", "amber96.xml", "amber99sb.xml",
                   "amber99sbildn.xml", "amber99sbnmr.xml"]
    ensures WaterActive(p)
  {
    assert 'g' !in p && 'o' !in p;
    forall j | 0 <= j <= |p| - 4
      ensures !Text.OccursAt(p, "gbvi", j)
    {
      assert p[j..j + 4][0] == p[j];
    }
    forall j | 0 <= j <= |p| - 3
      ensures !Text.OccursAt(p, "obc", j)
    {
      assert p[j..j + 3][0] == p[j];
    }
  }

  /** One way to match `.+\.dcd$` from the start: at least one character
      other than a line break, then `.dcd` ending at position `n + 4`, which
      is the end of the text or is followed by one final line break (where
      `$` also matches). */
  predicate DcdAt(s: string, n: nat) {
    && 1 <= n && n + 4 <= |s|
    && (forall j :: 0 <= j < n ==> s[j] != '\n')
    && s[n..n + 4] == ".dcd"
    && (|s| == n + 4 || (|s| == n + 5 && s[n + 4] == '\n'))
  }

  /** The `dcd_out` Regex trait's test, by trying the only two places the
      suffix can start. */
  function DcdOutMatches(s: string): (b: bool)
    ensures b <==> exists n :: DcdAt(s, n)
  {
    if |s| >= 5 && DcdAt(s, |s| - 4) then true
    else if |s| >= 6 && DcdAt(s, |s| - 5) then true
    else
      assert forall n :: DcdAt(s, n) ==> n == |s| - 4 || n == |s| - 5;
      false
  }

  /** Assigning `dcd_out`: a name that does not match is a `TraitError`. */
  function SetDcdOut(r: Reporters, name: string): (res: Result<Reporters, TraitError>)
    ensures res.Success? <==> exists n :: DcdAt(name, n)
    ensures res.Failure? ==> res.error == TraitError("dcd_out", name)
    ensures res.Success? ==> res.value == r.(dcdOut := name)
  {
    if DcdOutMatches(name) then Success(r.(dcdOut := name)) else Failure(TraitError("dcd_out", name))
  }

  /** The default name is accepted; a bare `.dcd`, a name that only contains
      the suffix, and a name with a line break before the suffix are not. */
  lemma DcdOutExamples()
    ensures DcdOutMatches(DefaultDcdOut)
    ensures DcdOutMatches("run.dcd\n")
    ensures !DcdOutMatches(".dcd")
    ensures !DcdOutMatches("a.dcd.bak")
    ensures !DcdOutMatches("a\nb.dcd")
  {
    assert DcdAt(DefaultDcdOut, 6);
    assert DcdAt("run.dcd\n", 3);
    assert "a.dcd.bak"[5..9][1] == 'b';
    assert "a.dcd.bak"[8] != '\n';
    assert "a\nb.dcd"[1] == '\n';
  }
}

=== FILE: messages.dfy ===
/** The samples that travel on the queue: Python dicts built by
    `dict(zip(headers, values))` in openmm_builder/runner.py. */
module Messages {

  /** A dict from field name to value. `keys` lists each key once, in the
      order it was first inserted; `values` holds the value of every key. */
  datatype Message = Message(keys: seq<string>, values: map<string, real>)

  const Empty: Message := Message([], map[])

  ghost predicate Distinct(ks: seq<string>) {
    forall i, j :: 0 <= i < j < |ks| ==> ks[i] != ks[j]
  }

  /** The two views of a dict agree and no key is listed twice. */
  ghost predicate Valid(m: Message) {
    && Distinct(m.keys)
    && (forall k :: k in m.values <==> k in m.keys)
  }

  /** Position `i` holds the last occurrence of its key among the first `n`. */
  ghost predicate LastOccurrence(ks: seq<string>, n: nat, i: nat)
    requires i < n <= |ks|
  {
    forall j :: i < j < n ==> ks[j] != ks[i]
  }

  /** `d[k] = v`: a new key goes to the end, an existing key keeps its place. */
  function Insert(m: Message, k: string, v: real): (r: Message)
    requires Valid(m)
    ensures Valid(r)
    ensures r.values == m.values[k := v]
    ensures k in m.values ==> r.keys == m.keys
    ensures k !in m.values ==> r.keys == m.keys + [k]
  {
    if k in m.values then m.(values := m.values[k := v])
    else Message(m.keys + [k], m.values[k := v])
  }

  /** The dict built by inserting the pairs `(ks[i], vs[i])` in order. */
  function DictOf(ks: seq<string>, vs: seq<real>): (m: Message)
    requires |ks| == |vs|
    ensures Valid(m)
    ensures forall k :: k in m.values <==> k in ks
    decreases |ks|
  {
    if |ks| == 0 then Empty
    else
      var n := |ks| - 1;
      assert ks == ks[..n] + [ks[n]];
      Insert(DictOf(ks[..n], vs[..n]), ks[n], vs[n])
  }

  /** Each key holds the value paired with its last occurrence. */
  lemma {:induction false} DictOfLastWins(ks: seq<string>, vs: seq<real>, i: nat)
    requires |ks| == |vs| && i < |ks|
    requires LastOccurrence(ks, |ks|, i)
    ensures ks[i] in DictOf(ks, vs).values && DictOf(ks, vs).values[ks[i]] == vs[i]
    decreases |ks|
  {
    var n := |ks| - 1;
    var prev := DictOf(ks[..n], vs[..n]);
    assert DictOf(ks, vs) == Insert(prev, ks[n], vs[n]);
    if i < n {
      assert ks[n] != ks[i];
      assert ks[..n][i] == ks[i];
      assert LastOccurrence(ks[..n], n, i);
      DictOfLastWins(ks[..n], vs[..n], i);
      assert prev.values[ks[i]] == vs[i];
    }
  }

  /** Distinct keys come out in the order they went in. */
  lemma {:induction false} DictOfDistinctKeys(ks: seq<string>, vs: seq<real>)
    requires |ks| == |vs| && Distinct(ks)
    ensures DictOf(ks, vs).keys == ks
    decreases |ks|
  {
    if |ks| > 0 {
      var n := |ks| - 1;
      assert Distinct(ks[..n]);
      DictOfDistinctKeys(ks[..n], vs[..n]);
      assert ks[n] !in ks[..n];
    }
  }

  /** `dict(zip(ks, vs))`: `zip` stops at the shorter list. */
  function FromPairs(ks: seq<string>, vs: seq<real>): (m: Message)
    ensures Valid(m)
    ensures forall k :: k in m.values <==> k in ks[..PairCount(ks, vs)]
  {
    var n := PairCount(ks, vs);
    DictOf(ks[..n], vs[..n])
  }

  /** How many pairs `zip` produces. */
  function PairCount<A, B>(ks: seq<A>, vs: seq<B>): (n: nat)
    ensures n <= |ks| && n <= |vs|
    ensures n == |ks| || n == |vs|
  {
    if |ks| < |vs| then |ks| else |vs|
  }

  /** With distinct keys the dict is exactly the first `min(|ks|, |vs|)`
      keys, each paired with the value at the same position; a surplus on
      either side is dropped, not reported. */
  lemma FromPairsDistinct(ks: seq<string>, vs: seq<real>)
    requires Distinct(ks)
    ensures var n := PairCount(ks, vs);
            && FromPairs(ks, vs).keys == ks[..n]
            && forall i :: 0 <= i < n ==> FromPairs(ks, vs).values[ks[i]] == vs[i]
  {
    var n := PairCount(ks, vs);
    assert Distinct(ks[..n]);
    DictOfDistinctKeys(ks[..n], vs[..n]);
    forall i | 0 <= i < n
      ensures FromPairs(ks, vs).values[ks[i]] == vs[i]
    {
      assert LastOccurrence(ks[..n], n, i);
      DictOfLastWins(ks[..n], vs[..n], i);
    }
  }
}

=== FILE: mustache.dfy ===
/** The part of Mustache templating the script template relies on: text,
    escaped variable tags, and sections that render their body once when
    their key holds a true value and not at all when it holds a false one
    (the "Variables" and "Sections" rules of the Mustache specification).
    A template is a list of lines; no tag spans a line break. */
module Mustache {
  import opened Wrappers
  import Text

  /** Text that stays on one line. */
  type LineText = s: string | '\n' !in s

  /** Literal text or a `{{name}}` tag; tag names are drawn from `K`. */
  datatype Atom<K> = Lit(text: LineText) | Var(name: K)

  /** An atom, or a `{{#flag}}...{{/flag}}` section around atoms. */
  datatype Part<K> = Plain(atom: Atom<K>) | Section(flag: K, body: seq<Atom<K>>)

  /** What the tags look up: the text of a variable (before escaping), the
      truth of a section key, and the renderer's escape function. A missing
      variable renders as nothing and a missing key counts as false. */
  datatype Context<!K> = Context(vars: K -> Option<string>, flags: K -> Option<bool>, escape: string -> string)

  function Lookup<K>(ctx: Context<K>, name: K): string {
    match ctx.vars(name)
    case Some(v) => v
    case None => ""
  }

  predicate Flag<K>(ctx: Context<K>, name: K) {
    ctx.flags(name) == Some(true)
  }

  function RenderAtom<K>(a: Atom<K>, ctx: Context<K>): string {
    match a
    case Lit(t) => t
    case Var(n) => ctx.escape(Lookup(ctx, n))
  }

  function RenderAtoms<K>(atoms: seq<Atom<K>>, ctx: Context<K>): string
    decreases |atoms|
  {
    if |atoms| == 0 then "" else RenderAtom(atoms[0], ctx) + RenderAtoms(atoms[1..], ctx)
  }

  /** A section shows its body when its key is true and vanishes otherwise. */
  function RenderPart<K>(p: Part<K>, ctx: Context<K>): (s: string)
    ensures p.Section? && Flag(ctx, p.flag) ==> s == RenderAtoms(p.body, ctx)
    ensures p.Section? && !Flag(ctx, p.flag) ==> s == ""
    ensures p.Plain? ==> s == RenderAtoms([p.atom], ctx)
  {
    match p
    case Plain(a) => RenderAtom(a, ctx)
    case Section(f, body) => if Flag(ctx, f) then RenderAtoms(body, ctx) else ""
  }

  function RenderLine<K>(parts: seq<Part<K>>, ctx: Context<K>): string
    decreases |parts|
  {
    if |parts| == 0 then "" else RenderPart(parts[0], ctx) + RenderLine(parts[1..], ctx)
  }

  /** The rendered lines, joined by line breaks. */
  function Render<K>(lines: seq<seq<Part<K>>>, ctx: Context<K>): string {
    Text.Join("\n", RenderLines(lines, ctx))
  }

  function RenderLines<K>(lines: seq<seq<Part<K>>>, ctx: Context<K>): (rs: seq<string>)
    ensures |rs| == |lines|
    ensures forall i :: 0 <= i < |lines| ==> rs[i] == RenderLine(lines[i], ctx)
  {
    seq(|lines|, i requires 0 <= i < |lines| => RenderLine(lines[i], ctx))
  }

  /** Rendering a line is rendering its pieces one after another. */
  lemma {:induction false} RenderLineConcat<K>(a: seq<Part<K>>, b: seq<Part<K>>, ctx: Context<K>)
    ensures RenderLine(a + b, ctx) == RenderLine(a, ctx) + RenderLine(b, ctx)
    decreases |a|
  {
    if |a| > 0 {
      assert (a + b)[0] == a[0];
      assert (a + b)[1..] == a[1..] + b;
      RenderLineConcat(a[1..], b, ctx);
    } else {
      assert a + b == b;
    }
  }

  /** The same for atoms. */
  lemma {:induction false} RenderAtomsConcat<K>(a: seq<Atom<K>>, b: seq<Atom<K>>, ctx: Context<K>)
    ensures RenderAtoms(a + b, ctx) == RenderAtoms(a, ctx) + RenderAtoms(b, ctx)
    decreases |a|
  {
    if |a| > 0 {
      assert (a + b)[0] == a[0];
      assert (a + b)[1..] == a[1..] + b;
      RenderAtomsConcat(a[1..], b, ctx);
    } else {
      assert a + b == b;
    }
  }

  /** The section rule in context: a line with one section renders as what
      comes before it, the section's body if and only if its key is true,
      and what comes after it. */
  lemma SectionInLine<K>(pre: seq<Part<K>>, flag: K, body: seq<Atom<K>>, post: seq<Part<K>>, ctx: Context<K>)
    ensures RenderLine(pre + [Section(flag, body)] + post, ctx)
            == RenderLine(pre, ctx) + (if Flag(ctx, flag) then RenderAtoms(body, ctx) else "") + RenderLine(post, ctx)
  {
    var sec := [Section(flag, body)];
    RenderLineConcat(pre + sec, post, ctx);
    RenderLineConcat(pre, sec, ctx);
    SingleLine(Section(flag, body), ctx);
  }

  /** A line of one part renders as that part. */
  lemma SingleLine<K>(p: Part<K>, ctx: Context<K>)
    ensures RenderLine([p], ctx) == RenderPart(p, ctx)
  {
    assert [p][1..] == [];
  }

  /** A line of three parts renders as the three parts in order. */
  lemma ThreeParts<K>(a: Part<K>, b: Part<K>, c: Part<K>, ctx: Context<K>)
    ensures RenderLine([a, b, c], ctx) == RenderPart(a, ctx) + RenderPart(b, ctx) + RenderPart(c, ctx)
  {
    assert [a, b, c][1..] == [b, c];
    assert [b, c][1..] == [c];
    SingleLine(c, ctx);
  }

  /** A line of two parts renders as the two parts in order. */
  lemma TwoParts<K>(a: Part<K>, b: Part<K>, ctx: Context<K>)
    ensures RenderLine([a, b], ctx) == RenderPart(a, ctx) + RenderPart(b, ctx)
  {
    assert [a, b][1..] == [b];
    SingleLine(b, ctx);
  }

  /** Atoms render one after another. */
  lemma ThreeAtoms<K>(a: Atom<K>, b: Atom<K>, c: Atom<K>, ctx: Context<K>)
    ensures RenderAtoms([a, b, c], ctx) == RenderAtom(a, ctx) + RenderAtom(b, ctx) + RenderAtom(c, ctx)
  {
    assert [a, b, c][1..] == [b, c];
    assert [b, c][1..] == [c];
    assert [c][1..] == [];
    assert RenderAtoms([c], ctx) == RenderAtom(c, ctx) + RenderAtoms([], ctx);
    assert RenderAtoms([], ctx) == "";
  }

  lemma FourAtoms<K>(a: Atom<K>, b: Atom<K>, c: Atom<K>, d: Atom<K>, ctx: Context<K>)
    ensures RenderAtoms([a, b, c, d], ctx) == RenderAtom(a, ctx) + RenderAtom(b, ctx) + RenderAtom(c, ctx) + RenderAtom(d, ctx)
  {
    assert [a, b, c, d][1..] == [b, c, d];
    ThreeAtoms(b, c, d, ctx);
  }

  /** A line without tags renders as its own text. */
  lemma PlainText<K>(t: LineText, ctx: Context<K>)
    ensures RenderLine([Plain(Lit(t))], ctx) == t
  {
    SingleLine(Plain(Lit(t)), ctx);
  }

  /** No variable renders with a line break. */
  ghost predicate VarsOneLine<K(!new)>(ctx: Context<K>) {
    forall n :: '\n' !in ctx.escape(Lookup(ctx, n))
  }

  lemma {:induction false} RenderAtomsOneLine<K(!new)>(atoms: seq<Atom<K>>, ctx: Context<K>)
    requires VarsOneLine(ctx)
    ensures '\n' !in RenderAtoms(atoms, ctx)
    decreases |atoms|
  {
    if |atoms| > 0 {
      RenderAtomsOneLine(atoms[1..], ctx);
      match atoms[0]
      case Lit(t) =>
      case Var(n) => assert '\n' !in ctx.escape(Lookup(ctx, n));
    }
  }

  /** A template line renders as a single line when no variable brings a
      line break in. */
  lemma {:induction false} RenderLineOneLine<K(!new)>(parts: seq<Part<K>>, ctx: Context<K>)
    requires VarsOneLine(ctx)
    ensures '\n' !in RenderLine(parts, ctx)
    decreases |parts|
  {
    if |parts| > 0 {
      RenderLineOneLine(parts[1..], ctx);
      match parts[0]
      case Plain(a) => RenderAtomsOneLine([a], ctx);
        assert RenderAtoms([a], ctx) == RenderAtom(a, ctx) + RenderAtoms([], ctx);
      case Section(_, body) => RenderAtomsOneLine(body, ctx);
    }
  }

  /** Splitting the rendered template at line breaks gives back its lines. */
  lemma RenderSplitsIntoLines<K(!new)>(lines: seq<seq<Part<K>>>, ctx: Context<K>)
    requires |lines| >= 1 && VarsOneLine(ctx)
    ensures Text.Split(Render(lines, ctx), "\n") == RenderLines(lines, ctx)
  {
    var rs := RenderLines(lines, ctx);
    forall k | 0 <= k < |rs|
      ensures '\n' !in rs[k]
    {
      RenderLineOneLine(lines[k], ctx);
    }
    Text.SplitJoin(rs, '\n');
  }
}

=== FILE: plots.dfy ===
/** The plotting side of a run (`queue_consumer`, `create_plots` and
    `update_plot` in openmm_builder/runner.py). The queue is the finite
    sequence of items put on it, a message or the `None` sentinel; the chaco
    plot objects become a record of scatter descriptions plus the plot data,
    a map from key to the series of values appended so far. */
module Plots {
  import opened Wrappers
  import opened Messages

  /** The colours handed out round-robin to the scatter plots. */
  const Palette: seq<string> := ["blue", "green", "silver", "pink", "lightblue", "red", "darkgray", "lightgreen"]

  const StepKey: string := "Step"
  const TimeKey: string := "Time (ps)"
  /** The two adjacent literals of the source concatenate with no space
      between "time" and "count". */
  const NoAxisMessage: string :=
    "The reporter published neither the step nor timecount, so I don't know what to plot on the x-axis!"

  /** One scatter plot: `y` against the x axis `x`, drawn in `color`. */
  datatype Scatter = Scatter(x: string, y: string, color: string)

  /** The plot set: the chosen x-axis key, the scatter plots in the order they
      were added, and the plot data. */
  datatype Plots = Plots(axis: string, scatters: seq<Scatter>, data: map<string, seq<real>>)

  /** The x axis: `Step` when present, else `Time (ps)` when present, else none. */
  function ChooseAxis(keys: seq<string>): (r: Option<string>)
    ensures r.Some? <==> StepKey in keys || TimeKey in keys
    ensures r.Some? ==> r.value in keys && (r.value == StepKey || r.value == TimeKey)
    ensures r == Some(TimeKey) ==> StepKey !in keys
  {
    if StepKey in keys then Some(StepKey)
    else if TimeKey in keys then Some(TimeKey)
    else None
  }

  /** `filter(lambda y: y != x, keys)`. */
  function Others(keys: seq<string>, axis: string): (ys: seq<string>)
    ensures forall y :: y in ys <==> y in keys && y != axis
    ensures Distinct(keys) ==> Distinct(ys)
    ensures |ys| <= |keys|
    ensures axis !in keys ==> ys == keys
    ensures Distinct(keys) && axis in keys ==> AxisBetween(keys, ys, axis)
    decreases |keys|, 2
  {
    if |keys| == 0 then []
    else
      OthersStep(keys, axis);
      if keys[0] == axis then Others(keys[1..], axis) else [keys[0]] + Others(keys[1..], axis)
  }

  /** One step of `Others`: the first key is dropped when it is the axis and
      kept in front otherwise, and the result still has every property of
      `Others`. */
  lemma OthersStep(keys: seq<string>, axis: string)
    requires |keys| > 0
    ensures var ys := if keys[0] == axis then Others(keys[1..], axis) else [keys[0]] + Others(keys[1..], axis);
            && (forall y :: y in ys <==> y in keys && y != axis)
            && (Distinct(keys) ==> Distinct(ys))
            && |ys| <= |keys|
            && (axis !in keys ==> ys == keys)
            && (Distinct(keys) && axis in keys ==> AxisBetween(keys, ys, axis))
    decreases |keys|, 1
  {
    if keys[0] == axis {
      AxisDropped(keys, axis);
    } else {
      KeyKept(keys, axis);
    }
  }

  /** The axis in first place is dropped, and the rest is kept whole. */
  lemma AxisDropped(keys: seq<string>, axis: string)
    requires |keys| > 0 && keys[0] == axis
    ensures var ys := Others(keys[1..], axis);
            && (forall y :: y in ys <==> y in keys && y != axis)
            && (Distinct(keys) ==> Distinct(ys))
            && |ys| <= |keys|
            && (axis !in keys ==> ys == keys)
            && (Distinct(keys) && axis in keys ==> AxisBetween(keys, ys, axis))
    decreases |keys|, 0
  {
    var rest := Others(keys[1..], axis);
    assert keys == [keys[0]] + keys[1..];
    assert Distinct(keys) ==> axis !in keys[1..];
    AxisFirst(keys, rest, axis);
  }

  /** Another key in first place is kept in front of what the rest keeps. */
  lemma KeyKept(keys: seq<string>, axis: string)
    requires |keys| > 0 && keys[0] != axis
    ensures var ys := [keys[0]] + Others(keys[1..], axis);
            && (forall y :: y in ys <==> y in keys && y != axis)
            && (Distinct(keys) ==> Distinct(ys))
            && |ys| <= |keys|
            && (axis !in keys ==> ys == keys)
            && (Distinct(keys) && axis in keys ==> AxisBetween(keys, ys, axis))
    decreases |keys|, 0
  {
    var rest := Others(keys[1..], axis);
    assert keys == [keys[0]] + keys[1..];
    assert Distinct(keys) ==> keys[0] !in keys[1..];
    if Distinct(keys) && axis in keys {
      assert axis in keys[1..];
      var p :| 0 <= p <= |rest| && keys[1..] == rest[..p] + [axis] + rest[p..];
      KeptFirst(keys[0], rest, axis, p);
    }
  }

  /** `keys` is `ys` with `axis` put back at one position. */
  ghost predicate AxisBetween(keys: seq<string>, ys: seq<string>, axis: string) {
    exists p :: 0 <= p <= |ys| && keys == ys[..p] + [axis] + ys[p..]
  }

  /** The axis comes first: the rest is kept whole. */
  lemma AxisFirst(keys: seq<string>, ys: seq<string>, axis: string)
    requires |keys| > 0 && keys[0] == axis
    requires axis !in keys[1..] ==> ys == keys[1..]
    ensures Distinct(keys) ==> AxisBetween(keys, ys, axis)
  {
    if Distinct(keys) {
      assert axis !in keys[1..];
      assert keys == ys[..0] + [axis] + ys[0..];
    }
  }

  /** A kept first key goes in front of what the rest keeps, so the axis
      moves one place on. */
  lemma KeptFirst(k: string, rest: seq<string>, axis: string, p: nat)
    requires p <= |rest|
    ensures var ys := [k] + rest;
            [k] + (rest[..p] + [axis] + rest[p..]) == ys[..p + 1] + [axis] + ys[p + 1..]
  {
    var ys := [k] + rest;
    assert ys[..p + 1] == [k] + rest[..p] && ys[p + 1..] == rest[p..];
  }

  /** `i mod 8`-th colour of the palette, as `itertools.cycle` hands them out. */
  function ColorAt(i: nat): (c: string)
    ensures c in Palette
  {
    Palette[i % |Palette|]
  }

  /** The first eight scatter plots take the palette in order, and from then
      on the colours repeat with period eight. */
  lemma ColorsCycle(i: nat)
    ensures i < |Palette| ==> ColorAt(i) == Palette[i]
    ensures ColorAt(i + |Palette|) == ColorAt(i)
  {
    assert |Palette| == 8;
    assert (i + 8) % 8 == i % 8;
  }

  /** The plot set created for the keys of the first message, or the
      `ValueError` raised when no x axis can be chosen; in that case no
      scatter plot is added. */
  function CreatePlots(keys: seq<string>): (r: Result<Plots, string>)
    ensures r.Failure? <==> StepKey !in keys && TimeKey !in keys
    ensures r.Failure? ==> r.error == NoAxisMessage
    ensures r.Success? ==> Some(r.value.axis) == ChooseAxis(keys)
    ensures r.Success? ==>
              var ys := Others(keys, r.value.axis);
              && |r.value.scatters| == |ys|
              && forall i :: 0 <= i < |ys| ==> r.value.scatters[i] == Scatter(r.value.axis, ys[i], ColorAt(i))
    ensures r.Success? ==> forall k :: k in r.value.data <==> k in keys
    ensures r.Success? ==> forall k :: k in r.value.data ==> r.value.data[k] == []
  {
    match ChooseAxis(keys)
    case None => Failure(NoAxisMessage)
    case Some(x) =>
      var ys := Others(keys, x);
      var scatters := seq(|ys|, i requires 0 <= i < |ys| => Scatter(x, ys[i], ColorAt(i)));
      Success(Plots(x, scatters, map k | k in keys :: []))
  }

  /** The series stored under `k`, the empty series when there is none. */
  function SeriesOf(data: map<string, seq<real>>, k: string): seq<real> {
    if k in data then data[k] else []
  }

  /** `set_data(k, np.r_[get_data(k), v])` for every item of the message. */
  function AppendSample(p: Plots, msg: Message): (r: Plots)
    ensures r.axis == p.axis && r.scatters == p.scatters
    ensures forall k :: k in r.data <==> k in p.data || k in msg.values
    ensures forall k :: k in msg.values ==> r.data[k] == SeriesOf(p.data, k) + [msg.values[k]]
    ensures forall k :: k in p.data && k !in msg.values ==> r.data[k] == p.data[k]
  {
    var keys := p.data.Keys + msg.values.Keys;
    p.(data := map k | k in keys :: if k in msg.values then SeriesOf(p.data, k) + [msg.values[k]] else p.data[k])
  }

  /** `update_plot`: create the plots on the first message, then append. */
  function UpdatePlot(plots: Option<Plots>, msg: Message): (r: Result<Plots, string>)
    ensures plots.Some? ==> r == Success(AppendSample(plots.value, msg))
    ensures plots.None? ==> r.Failure? == CreatePlots(msg.keys).Failure?
    ensures plots.None? && r.Success? ==> r.value == AppendSample(CreatePlots(msg.keys).value, msg)
  {
    var p :- if plots.None? then CreatePlots(msg.keys) else Success(plots.value);
    Success(AppendSample(p, msg))
  }

  /** Where the consumer thread is: still polling, stopped by the sentinel, or
      ended by an exception from `update_plot`. */
  datatype Status = Running | Done | Crashed(error: string)

  /** The consumer: its status, the plot set once created, and how many
      items it has taken off the queue. */
  datatype Consumer = Consumer(status: Status, plots: Option<Plots>, taken: nat)

  const Start: Consumer := Consumer(Running, None, 0)

  /** The status text shown in the window. A crashed thread never reaches
      the line that sets `Done`. */
  function StatusText(s: Status): (t: string)
    ensures t == "Done" <==> s == Done
    ensures s != Done ==> t == "Running..."
  {
    match s
    case Done => "Done"
    case _ => "Running..."
  }

  /** The consumer loop, from state `c`, over the items still to come. */
  function ConsumeFrom(c: Consumer, items: seq<Option<Message>>): (r: Consumer)
    requires c.status == Running
    ensures c.taken <= r.taken <= c.taken + |items|
    ensures r.status == Running ==> r.taken == c.taken + |items|
    ensures r.status != Running ==> r.taken > c.taken
    ensures forall j :: 0 <= j < r.taken - c.taken - 1 ==> items[j].Some?
    ensures r.status == Running ==> forall j :: 0 <= j < |items| ==> items[j].Some?
    ensures r.status == Done ==> items[r.taken - c.taken - 1].None?
    ensures r.status.Crashed? ==> items[r.taken - c.taken - 1].Some?
    ensures r.status.Crashed? ==>
              && c.plots.None? && r.plots.None? && r.taken == c.taken + 1
              && items[0].Some? && CreatePlots(items[0].value.keys).Failure?
              && r.status.error == NoAxisMessage
    decreases |items|
  {
    if |items| == 0 then c
    else
      match items[0]
      case None => c.(status := Done, taken := c.taken + 1)
      case Some(msg) =>
        match UpdatePlot(c.plots, msg)
        case Failure(e) => c.(status := Crashed(e), taken := c.taken + 1)
        case Success(p) =>
          var r := ConsumeFrom(Consumer(Running, Some(p), c.taken + 1), items[1..]);
          assert forall j :: 1 <= j < |items| ==> items[j] == items[1..][j - 1];
          r
  }

  /** The converse of the crash clause of `ConsumeFrom`: before any plot
      exists, a first message with neither `Step` nor `Time (ps)` makes
      `update_plot` raise, and the thread ends on the one item it took. */
  lemma CrashOnAxislessFirst(c: Consumer, items: seq<Option<Message>>)
    requires c.status == Running && c.plots.None?
    requires |items| > 0 && items[0].Some?
    requires StepKey !in items[0].value.keys && TimeKey !in items[0].value.keys
    ensures ConsumeFrom(c, items) == c.(status := Crashed(NoAxisMessage), taken := c.taken + 1)
  {
  }

  /** `queue_consumer` over everything ever put on the queue. */
  function Consume(items: seq<Option<Message>>): Consumer {
    ConsumeFrom(Start, items)
  }

  /** The `while True` loop of `queue_consumer`, one queue item per turn. */
  method ConsumeLoop(items: seq<Option<Message>>) returns (c: Consumer)
    ensures c == Consume(items)
  {
    c := Start;
    var i := 0;
    while i < |items|
      invariant 0 <= i <= |items|
      invariant c.status == Running && c.taken == i
      invariant ConsumeFrom(c, items[i..]) == Consume(items)
    {
      var item := items[i];
      assert items[i..][0] == item;
      if item.None? {
        c := c.(status := Done, taken := i + 1);
        return;
      }
      var next := UpdatePlot(c.plots, item.value);
      if next.Failure? {
        c := c.(status := Crashed(next.error), taken := i + 1);
        return;
      }
      ConsumeStep(c, items[i..], next.value);
      assert items[i..][1..] == items[i + 1..];
      c := Consumer(Running, Some(next.value), i + 1);
      i := i + 1;
    }
  }

  /** Nothing after the first sentinel is read: the items before it are
      handled in order, the sentinel stops the loop (unless an earlier
      message already ended it), and what follows changes nothing. */
  lemma {:induction false} SentinelStops(c: Consumer, pre: seq<Option<Message>>, post: seq<Option<Message>>)
    requires c.status == Running
    requires forall j :: 0 <= j < |pre| ==> pre[j].Some?
    ensures ConsumeFrom(c, pre + [None] + post) == ConsumeFrom(c, pre + [None])
    ensures ConsumeFrom(c, pre + [None]).status != Running
    decreases |pre|
  {
    var all := pre + [None] + post;
    var cut := pre + [None];
    if |pre| == 0 {
      assert all[0] == None && cut[0] == None;
    } else {
      assert all[0] == pre[0] && cut[0] == pre[0];
      assert all[1..] == pre[1..] + [None] + post;
      assert cut[1..] == pre[1..] + [None];
      match UpdatePlot(c.plots, pre[0].value)
      case Failure(_) =>
      case Success(p) =>
        var next := Consumer(Running, Some(p), c.taken + 1);
        SentinelStops(next, pre[1..], post);
        ConsumeStep(c, all, p);
        ConsumeStep(c, cut, p);
    }
  }

  /** Every message of the sequence, in order, as queue items. */
  function Items(msgs: seq<Message>): (items: seq<Option<Message>>)
    ensures |items| == |msgs|
    ensures forall i :: 0 <= i < |msgs| ==> items[i] == Some(msgs[i])
  {
    seq(|msgs|, i requires 0 <= i < |msgs| => Some(msgs[i]))
  }

  /** The messages all carry exactly the keys `keys`. */
  ghost predicate SameKeys(msgs: seq<Message>, keys: seq<string>) {
    forall i :: 0 <= i < |msgs| ==> Valid(msgs[i]) && msgs[i].keys == keys
  }

  /** The values of key `k`, one per message, in arrival order. */
  function Column(msgs: seq<Message>, k: string): seq<real>
    requires forall i :: 0 <= i < |msgs| ==> k in msgs[i].values
    decreases |msgs|
  {
    if |msgs| == 0 then [] else [msgs[0].values[k]] + Column(msgs[1..], k)
  }

  /** `AppendSample` for each message in turn. */
  function AppendAll(p: Plots, msgs: seq<Message>): Plots
    decreases |msgs|
  {
    if |msgs| == 0 then p else AppendAll(AppendSample(p, msgs[0]), msgs[1..])
  }

  /** Once the plots exist, the consumer appends every message and keeps running. */
  lemma {:induction false} ConsumeCreated(p: Plots, t: nat, msgs: seq<Message>)
    ensures ConsumeFrom(Consumer(Running, Some(p), t), Items(msgs))
            == Consumer(Running, Some(AppendAll(p, msgs)), t + |msgs|)
    decreases |msgs|
  {
    if |msgs| > 0 {
      assert Items(msgs)[1..] == Items(msgs[1..]);
      ConsumeCreated(AppendSample(p, msgs[0]), t + 1, msgs[1..]);
    }
  }

  /** Every message of a same-keys sequence has a value for each of the keys. */
  lemma SameKeysHaveValues(msgs: seq<Message>, keys: seq<string>, k: string)
    requires SameKeys(msgs, keys) && k in keys
    ensures forall i :: 0 <= i < |msgs| ==> k in msgs[i].values
  {
    forall i | 0 <= i < |msgs|
      ensures k in msgs[i].values
    {
      assert Valid(msgs[i]) && msgs[i].keys == keys;
    }
  }

  /** Appending messages that carry exactly the plotted keys keeps the axis,
      the scatter plots and the set of series. */
  lemma {:induction false} AppendAllShape(p: Plots, msgs: seq<Message>, keys: seq<string>)
    requires forall i, k :: 0 <= i < |msgs| && k in msgs[i].values ==> k in keys
    requires forall k :: k in p.data <==> k in keys
    ensures AppendAll(p, msgs).axis == p.axis && AppendAll(p, msgs).scatters == p.scatters
    ensures forall k :: k in AppendAll(p, msgs).data <==> k in keys
    decreases |msgs|
  {
    if |msgs| > 0 {
      AppendAllShape(AppendSample(p, msgs[0]), msgs[1..], keys);
    }
  }

  /** Appending messages that carry exactly the plotted keys extends the
      series of key `k` by that key's column. */
  lemma {:induction false} AppendAllSeries(p: Plots, msgs: seq<Message>, k: string)
    requires k in p.data
    requires forall i :: 0 <= i < |msgs| ==> k in msgs[i].values
    ensures k in AppendAll(p, msgs).data && AppendAll(p, msgs).data[k] == p.data[k] + Column(msgs, k)
    decreases |msgs|
  {
    if |msgs| > 0 {
      ColumnCons(msgs, k);
      AppendAllSeries(AppendSample(p, msgs[0]), msgs[1..], k);
      AppendAllStep(p, msgs, k);
      Regroup(p.data[k], msgs[0].values[k], Column(msgs[1..], k), Column(msgs, k), AppendAll(p, msgs).data[k]);
    } else {
      assert p.data[k] + [] == p.data[k];
    }
  }

  /** The column of a non-empty sequence is the first message's value
      followed by the column of the rest. */
  lemma ColumnCons(msgs: seq<Message>, k: string)
    requires |msgs| > 0
    requires forall i :: 0 <= i < |msgs| ==> k in msgs[i].values
    ensures forall i :: 0 <= i < |msgs[1..]| ==> k in msgs[1..][i].values
    ensures Column(msgs, k) == [msgs[0].values[k]] + Column(msgs[1..], k)
  {
    forall i | 0 <= i < |msgs[1..]|
      ensures k in msgs[1..][i].values
    {
      assert msgs[1..][i] == msgs[i + 1];
    }
  }

  /** One step of `AppendAll` on the series of `k`, given the rest. */
  lemma AppendAllStep(p: Plots, msgs: seq<Message>, k: string)
    requires k in p.data && |msgs| > 0 && k in msgs[0].values
    requires forall i :: 0 <= i < |msgs[1..]| ==> k in msgs[1..][i].values
    requires var q := AppendSample(p, msgs[0]);
             && k in AppendAll(q, msgs[1..]).data
             && AppendAll(q, msgs[1..]).data[k] == q.data[k] + Column(msgs[1..], k)
    ensures k in AppendAll(p, msgs).data
    ensures AppendAll(p, msgs).data[k] == (p.data[k] + [msgs[0].values[k]]) + Column(msgs[1..], k)
  {
  }

  /** `(a + [v]) + c` regrouped as `a + ([v] + c)`. */
  lemma Regroup(a: seq<real>, v: real, c: seq<real>, col: seq<real>, lhs: seq<real>)
    requires col == [v] + c && lhs == (a + [v]) + c
    ensures lhs == a + col
  {
  }

  /** The consumer creates the plots from the first message and appends
      every message to them, the first one included. */
  lemma ConsumeStartsFromFirst(msgs: seq<Message>, keys: seq<string>)
    requires |msgs| >= 1 && Valid(msgs[0]) && msgs[0].keys == keys
    requires StepKey in keys || TimeKey in keys
    ensures CreatePlots(keys).Success?
    ensures Consume(Items(msgs))
            == Consumer(Running, Some(AppendAll(AppendSample(CreatePlots(keys).value, msgs[0]), msgs[1..])), |msgs|)
  {
    var first := AppendSample(CreatePlots(keys).value, msgs[0]);
    var items := Items(msgs);
    assert UpdatePlot(None, msgs[0]) == Success(first);
    assert items[0] == Some(msgs[0]);
    assert items[1..] == Items(msgs[1..]);
    ConsumeStep(Start, items, first);
    ConsumeCreated(first, 1, msgs[1..]);
  }

  /** One turn of the loop on a message that `update_plot` accepts. */
  lemma ConsumeStep(c: Consumer, items: seq<Option<Message>>, p: Plots)
    requires c.status == Running && |items| > 0 && items[0].Some?
    requires UpdatePlot(c.plots, items[0].value) == Success(p)
    ensures ConsumeFrom(c, items) == ConsumeFrom(Consumer(Running, Some(p), c.taken + 1), items[1..])
  {
  }

  /** The plots after the first message of keys `keys`: one series per key,
      each holding that message's value. */
  lemma FirstSample(msg: Message, keys: seq<string>)
    requires Valid(msg) && msg.keys == keys
    requires StepKey in keys || TimeKey in keys
    ensures var first := AppendSample(CreatePlots(keys).value, msg);
            && (forall k :: k in first.data <==> k in keys)
            && forall k :: k in keys ==> first.data[k] == [msg.values[k]]
  {
  }

  /** Appending the remaining messages to the plots made from the first one
      gives one series per key holding that key's column. */
  lemma RestAppended(msgs: seq<Message>, keys: seq<string>)
    requires |msgs| >= 1 && SameKeys(msgs, keys)
    requires StepKey in keys || TimeKey in keys
    ensures var last := AppendAll(AppendSample(CreatePlots(keys).value, msgs[0]), msgs[1..]);
            && last.axis == CreatePlots(keys).value.axis
            && last.scatters == CreatePlots(keys).value.scatters
            && (forall k :: k in last.data <==> k in keys)
            && forall k :: k in keys ==> last.data[k] == Column(msgs, k)
  {
    assert Valid(msgs[0]) && msgs[0].keys == keys;
    FirstSample(msgs[0], keys);
    var first := AppendSample(CreatePlots(keys).value, msgs[0]);
    RestKeysPlotted(msgs, keys);
    AppendAllShape(first, msgs[1..], keys);
    forall k | k in keys
      ensures AppendAll(first, msgs[1..]).data[k] == Column(msgs, k)
    {
      SameKeysHaveValues(msgs, keys, k);
      ColumnAfterFirst(first, msgs, k);
    }
  }

  /** The keys of every message after the first are among `keys`. */
  lemma RestKeysPlotted(msgs: seq<Message>, keys: seq<string>)
    requires |msgs| >= 1 && SameKeys(msgs, keys)
    ensures forall i, k :: 0 <= i < |msgs[1..]| && k in msgs[1..][i].values ==> k in keys
  {
    var rest := msgs[1..];
    forall i, k | 0 <= i < |rest| && k in rest[i].values
      ensures k in keys
    {
      assert rest[i] == msgs[i + 1];
      assert Valid(msgs[i + 1]) && msgs[i + 1].keys == keys;
    }
  }

  /** The series of `k`, started with the first message's value, extended by
      the rest of the column. */
  lemma ColumnAfterFirst(first: Plots, msgs: seq<Message>, k: string)
    requires |msgs| >= 1 && forall i :: 0 <= i < |msgs| ==> k in msgs[i].values
    requires k in first.data && first.data[k] == [msgs[0].values[k]]
    ensures k in AppendAll(first, msgs[1..]).data
    ensures AppendAll(first, msgs[1..]).data[k] == Column(msgs, k)
  {
    var rest := msgs[1..];
    assert forall i :: 0 <= i < |rest| ==> rest[i] == msgs[i + 1];
    AppendAllSeries(first, rest, k);
  }

  /** After `n` messages that all carry the same keys, one of them `Step` or
      `Time (ps)`, the plots are those created from the first message, every
      key (the x axis included) has a series, and each series holds exactly
      the `n` values of its key in arrival order. */
  lemma SeriesHoldArrivals(msgs: seq<Message>, keys: seq<string>)
    requires |msgs| >= 1 && SameKeys(msgs, keys)
    requires StepKey in keys || TimeKey in keys
    ensures var c := Consume(Items(msgs));
            && c.status == Running && c.taken == |msgs| && c.plots.Some?
            && c.plots.value.axis == CreatePlots(keys).value.axis
            && c.plots.value.scatters == CreatePlots(keys).value.scatters
            && (forall k :: k in c.plots.value.data <==> k in keys)
            && forall k :: k in keys ==> c.plots.value.data[k] == Column(msgs, k)
  {
    assert Valid(msgs[0]) && msgs[0].keys == keys;
    ConsumeStartsFromFirst(msgs, keys);
    RestAppended(msgs, keys);
  }
}

=== FILE: reporter.dfy ===
/** The queue-backed reporter (`QueueStateDataReporter.report` in
    openmm_builder/runner.py). The wrapped reporter's text output for one
    call is a parameter; the first call's output holds a header line and a
    data line, later calls' output holds a data line only. Python's `float`
    is a parameter too. */
module Reporter {
  import opened Wrappers
  import opened Text
  import opened Messages

  /** What the reporter remembers between calls: whether the wrapped
      reporter has already written its header, and the recorded field names. */
  datatype Reporter = Reporter(initialized: bool, headers: seq<string>)

  /** A reporter as constructed: nothing reported yet, no field names. */
  const Fresh: Reporter := Reporter(false, [])

  /** `os.linesep` on a POSIX system. */
  const LineSeparator: string := "\n"

  /** The characters `e.strip('#"\'')` removes from each header name. */
  const HeaderDecoration: set<char> := {'#', '"', '\''}

  /** The three `ValueError`s a report can raise: the first output has no
      second line to unpack, the separator is empty, or a field is not a number. */
  datatype ReportError = MissingDataLine | EmptySeparator | NotAFloat(field: string)

  /** `line.strip().split(sep)`. */
  function Fields(line: string, sep: string): seq<string>
    requires |sep| > 0
  {
    Split(StripWhitespace(line), sep)
  }

  /** The field names of a header line: its fields, each stripped of
      surrounding `#`, `"` and `'` but keeping inner characters. */
  function HeaderNames(initial: string, sep: string): (names: seq<string>)
    requires |sep| > 0
    ensures |names| == |Fields(initial, sep)|
    ensures forall i :: 0 <= i < |names| ==> IsStripped(Fields(initial, sep)[i], names[i], HeaderDecoration)
  {
    var fs := Fields(initial, sep);
    seq(|fs|, i requires 0 <= i < |fs| => Strip(fs[i], HeaderDecoration))
  }

  /** `map(float, fields)`: every field must convert, in order. */
  function ParseAll(fields: seq<string>, toFloat: string -> Option<real>): (r: Result<seq<real>, ReportError>)
    ensures r.Success? <==> forall i :: 0 <= i < |fields| ==> toFloat(fields[i]).Some?
    ensures r.Success? ==> |r.value| == |fields|
    ensures r.Success? ==> forall i :: 0 <= i < |fields| ==> toFloat(fields[i]) == Some(r.value[i])
    ensures r.Failure? ==> exists i :: 0 <= i < |fields| && r.error == NotAFloat(fields[i]) && toFloat(fields[i]).None?
    decreases |fields|
  {
    if |fields| == 0 then Success([])
    else
      match toFloat(fields[0])
      case None => Failure(NotAFloat(fields[0]))
      case Some(v) =>
        var rest :- ParseAll(fields[1..], toFloat);
        assert forall i :: 1 <= i < |fields| ==> fields[i] == fields[1..][i - 1];
        Success([v] + rest)
  }

  /** The text the values are read from: the second line of the first
      output, the whole output afterwards. */
  function DataLine(r: Reporter, out: string): (line: string)
    ensures r.initialized ==> line == out
    ensures !r.initialized && Contains(out, LineSeparator) ==>
              out == SplitOnce(out, LineSeparator)[0] + LineSeparator + line
              && !Contains(SplitOnce(out, LineSeparator)[0], LineSeparator)
  {
    if r.initialized then out
    else
      var parts := SplitOnce(out, LineSeparator);
      if |parts| == 2 then parts[1] else ""
  }

  /** Every field of the data line converts to a number. */
  predicate Numeric(line: string, sep: string, toFloat: string -> Option<real>)
    requires |sep| > 0
  {
    forall i :: 0 <= i < |Fields(line, sep)| ==> toFloat(Fields(line, sep)[i]).Some?
  }

  /** A call that raised: the error, and the state the reporter is left in.
      Both attributes may already have changed by then, and a script that
      catches the error and reports again continues from that state. */
  datatype Raised = Raised(state: Reporter, error: ReportError)

  /** The reporter once a call is over, whether it returned or raised. The
      wrapped reporter marks itself initialized while writing its output,
      before anything here can raise. On the first call the names are
      recorded as soon as the header line has been split off and split on
      the separator; the values are read only after that. */
  function NextState(r: Reporter, out: string, sep: string): (s: Reporter)
    ensures s.initialized
    ensures r.initialized ==> s == r
    ensures !r.initialized && Contains(out, LineSeparator) && sep != "" ==>
              s.headers == HeaderNames(SplitOnce(out, LineSeparator)[0], sep)
    ensures !r.initialized && (!Contains(out, LineSeparator) || sep == "") ==>
              s.headers == r.headers
  {
    if r.initialized then r
    else
      var parts := SplitOnce(out, LineSeparator);
      if |parts| != 2 || sep == "" then r.(initialized := true)
      else Reporter(true, HeaderNames(parts[0], sep))
  }

  /** One call of `report`: returns the reporter's new state and the one
      message it puts on the queue, or the `ValueError` it raises together
      with the state it leaves behind. */
  function Report(r: Reporter, out: string, sep: string, toFloat: string -> Option<real>)
    : (res: Result<(Reporter, Message), Raised>)
    ensures res.Failure? <==>
              || (!r.initialized && !Contains(out, LineSeparator))
              || sep == ""
              || !Numeric(DataLine(r, out), sep, toFloat)
    ensures res.Success? ==> res.value.0 == NextState(r, out, sep)
    ensures res.Failure? ==> res.error.state == NextState(r, out, sep)
    ensures res.Failure? && !r.initialized && !Contains(out, LineSeparator) ==>
              res.error.error == MissingDataLine
    ensures res.Failure? && (r.initialized || Contains(out, LineSeparator)) && sep == "" ==>
              res.error.error == EmptySeparator
    ensures res.Failure? && (r.initialized || Contains(out, LineSeparator)) && sep != "" ==>
              res.error.error.NotAFloat? && toFloat(res.error.error.field).None?
    ensures res.Success? ==>
              var vs := ParseAll(Fields(DataLine(r, out), sep), toFloat).value;
              res.value.1 == FromPairs(res.value.0.headers, vs)
  {
    var next := NextState(r, out, sep);
    if !r.initialized && |SplitOnce(out, LineSeparator)| != 2 then Failure(Raised(next, MissingDataLine))
    else if sep == "" then Failure(Raised(next, EmptySeparator))
    else
      var line := DataLine(r, out);
      match ParseAll(Fields(line, sep), toFloat)
      case Failure(e) => Failure(Raised(next, e))
      case Success(vs) => Success((next, FromPairs(next.headers, vs)))
  }

  /** A first report whose data line holds a field that is not a number
      raises, but the reporter is left initialized with the names of the
      header line: a script that catches the error and reports again has
      its whole next output read as data under those names. */
  lemma FirstCallRaisesAfterNames(h: string, d: string, sep: string, toFloat: string -> Option<real>)
    requires '\n' !in h
    requires |sep| > 0 && !Numeric(d, sep, toFloat)
    ensures var res := Report(Fresh, h + LineSeparator + d, sep, toFloat);
            && res.Failure? && res.error.error.NotAFloat?
            && res.error.state == Reporter(true, HeaderNames(h, sep))
  {
    FirstCharOccurrence(h, '\n', d);
  }

  /** The first report reads its field names from the text before the first
      line break and its values from the text after it. */
  lemma ReportFirstCall(h: string, d: string, sep: string, toFloat: string -> Option<real>)
    requires '\n' !in h
    requires |sep| > 0 && Numeric(d, sep, toFloat)
    ensures var headers := HeaderNames(h, sep);
            Report(Fresh, h + LineSeparator + d, sep, toFloat)
              == Success((Reporter(true, headers), FromPairs(headers, ParseAll(Fields(d, sep), toFloat).value)))
  {
    FirstCharOccurrence(h, '\n', d);
  }

  /** The header line the wrapped reporter writes on its first call:
      `'#"%s"' % ('"' + sep + '"').join(names)`. */
  function HeaderLine(names: seq<string>, sep: string): string {
    "#\"" + Join("\"" + sep + "\"", names) + "\""
  }

  /** Each name in double quotes. */
  function Quoted(names: seq<string>): (q: seq<string>)
    ensures |q| == |names|
    ensures forall i :: 0 <= i < |names| ==> q[i] == "\"" + names[i] + "\""
  {
    seq(|names|, i requires 0 <= i < |names| => "\"" + names[i] + "\"")
  }

  /** Joining quoted names on `sep` is quoting the join on `"sep"`. */
  lemma {:induction false} JoinQuoted(names: seq<string>, sep: string)
    requires |names| >= 1
    ensures Join(sep, Quoted(names)) == "\"" + Join("\"" + sep + "\"", names) + "\""
    decreases |names|
  {
    if |names| > 1 {
      JoinQuoted(names[1..], sep);
      assert Quoted(names)[1..] == Quoted(names[1..]);
    }
  }

  /** The header line's fields as `split` sees them: the first carries the
      comment mark, every one is quoted. */
  function HeaderFields(names: seq<string>): (parts: seq<string>)
    requires |names| >= 1
    ensures |parts| == |names|
    ensures parts[0] == "#\"" + names[0] + "\""
    ensures forall i :: 1 <= i < |names| ==> parts[i] == "\"" + names[i] + "\""
  {
    ["#" + Quoted(names)[0]] + Quoted(names)[1..]
  }

  /** The header line is its fields joined on the separator. */
  lemma HeaderLineJoin(names: seq<string>, sep: string)
    requires |names| >= 1
    ensures HeaderLine(names, sep) == Join(sep, HeaderFields(names))
  {
    var q := Quoted(names);
    var parts := HeaderFields(names);
    JoinQuoted(names, sep);
    if |names| > 1 {
      assert parts[1..] == q[1..];
      assert Join(sep, parts) == parts[0] + sep + Join(sep, q[1..]);
      assert Join(sep, q) == q[0] + sep + Join(sep, q[1..]);
    }
    assert Join(sep, parts) == "#" + Join(sep, q);
    var inner := Join("\"" + sep + "\"", names);
    assert HeaderLine(names, sep) == "#" + ("\"" + inner + "\"");
  }

  /** The header line starts with `#` and ends with `"`, so `strip()` leaves it alone. */
  lemma HeaderLineUnpadded(names: seq<string>, sep: string)
    ensures StripWhitespace(HeaderLine(names, sep)) == HeaderLine(names, sep)
  {
    var h := HeaderLine(names, sep);
    assert h[0] == '#' && h[|h| - 1] == '"';
    StripSurrounded("", h, "", Whitespace);
    assert "" + h + "" == h;
  }

  /** A separator that is neither `#`, `"` nor in any name is in no field. */
  lemma HeaderFieldsFree(names: seq<string>, c: char)
    requires |names| >= 1
    requires c != '"' && c != '#'
    requires forall i :: 0 <= i < |names| ==> c !in names[i]
    ensures forall k :: 0 <= k < |names| ==> c !in HeaderFields(names)[k]
  {
    var parts := HeaderFields(names);
    forall k | 0 <= k < |names|
      ensures c !in parts[k]
    {
      if k == 0 {
        assert parts[0] == "#\"" + names[0] + "\"";
      } else {
        assert parts[k] == "\"" + names[k] + "\"";
      }
    }
  }

  /** Splitting the header line gives back its fields. */
  lemma FieldsOfHeaderLine(names: seq<string>, c: char)
    requires |names| >= 1
    requires c != '"' && c != '#'
    requires forall i :: 0 <= i < |names| ==> c !in names[i]
    ensures Fields(HeaderLine(names, [c]), [c]) == HeaderFields(names)
  {
    HeaderLineJoin(names, [c]);
    HeaderLineUnpadded(names, [c]);
    HeaderFieldsFree(names, c);
    SplitJoin(HeaderFields(names), c);
  }

  /** Stripping the decoration off a field gives back its name. */
  lemma StripHeaderField(names: seq<string>, i: nat)
    requires i < |names|
    requires |names[i]| > 0
    requires names[i][0] !in HeaderDecoration && names[i][|names[i]| - 1] !in HeaderDecoration
    ensures Strip(HeaderFields(names)[i], HeaderDecoration) == names[i]
  {
    if i == 0 {
      StripSurrounded("#\"", names[0], "\"", HeaderDecoration);
    } else {
      StripSurrounded("\"", names[i], "\"", HeaderDecoration);
    }
  }

  /** Recovering the names from the header line: as long as no name contains
      the separator or starts or ends with `#`, `"` or `'`, the parsed
      header is exactly the list of names the wrapped reporter wrote. */
  lemma HeaderNamesOfHeaderLine(names: seq<string>, c: char)
    requires |names| >= 1
    requires c != '"' && c != '#'
    requires forall i :: 0 <= i < |names| ==>
               && |names[i]| > 0 && c !in names[i]
               && names[i][0] !in HeaderDecoration && names[i][|names[i]| - 1] !in HeaderDecoration
    ensures HeaderNames(HeaderLine(names, [c]), [c]) == names
  {
    var h := HeaderLine(names, [c]);
    FieldsOfHeaderLine(names, c);
    var result := HeaderNames(h, [c]);
    forall i | 0 <= i < |names|
      ensures result[i] == names[i]
    {
      StripHeaderField(names, i);
    }
  }

  /** The message of a successful report, when the recorded names are
      distinct: the first `min(#names, #values)` names in order, each with
      the value read from the same position of the data line. */
  lemma ReportMessage(r: Reporter, out: string, sep: string, toFloat: string -> Option<real>)
    requires Report(r, out, sep, toFloat).Success?
    requires Distinct(Report(r, out, sep, toFloat).value.0.headers)
    ensures var (r', msg) := Report(r, out, sep, toFloat).value;
            var fields := Fields(DataLine(r, out), sep);
            var n := PairCount(r'.headers, fields);
            && msg.keys == r'.headers[..n]
            && forall i :: 0 <= i < n ==> toFloat(fields[i]) == Some(msg.values[r'.headers[i]])
  {
    var (r', msg) := Report(r, out, sep, toFloat).value;
    var fields := Fields(DataLine(r, out), sep);
    var vs := ParseAll(fields, toFloat).value;
    FromPairsDistinct(r'.headers, vs);
  }
}

=== FILE: rewriter.dfy ===
/** The source rewrite done before a script is run (`fix_code` in
    openmm_builder/runner.py): every token whose text is exactly
    `StateDataReporter` becomes a call of the queue-reporter factory, and the
    statement that puts the end-of-stream sentinel on the queue is appended.
    Python's tokenizer and untokenizer are not modelled; they are parameters. */
module Rewriter {
  import opened Wrappers
  import Text

  /** A (row, column) pair as the tokenizer reports it. */
  datatype Position = Position(row: nat, col: nat)

  /** One 5-tuple of `tokenize.generate_tokens`: type, text, start, end, physical line. */
  datatype Token = Token(kind: nat, text: string, start: Position, end: Position, line: string)

  /** Ways the tokenizer can reject a script: `tokenize.TokenError`, or another
      syntax error class (such as an inconsistent dedent) that it raises. */
  datatype TokenizeError = TokenError(message: string) | OtherSyntaxError(message: string)

  /** What `run_openmm_script` raises before anything is executed. */
  datatype RewriteError = ValueError(message: string) | Uncaught(cause: TokenizeError)

  const ReporterName: string := "StateDataReporter"
  const FactoryCall: string := "__queue_reporter_factory(__queue)"
  const SentinelStatement: string := "__queue.put(None)"
  const SyntaxErrorMessage: string := "The script has a syntax error!"

  /** The rewrite of a single token: only an exact match of the reporter's
      name is touched, and then only its text. */
  function RewriteToken(t: Token): (r: Token)
    ensures r.text != ReporterName
    ensures t.text != ReporterName ==> r == t
    ensures t.text == ReporterName ==> r == t.(text := FactoryCall)
  {
    if t.text == ReporterName then t.(text := FactoryCall) else t
  }

  /** The token map, position by position. */
  function RewriteTokens(ts: seq<Token>): (rs: seq<Token>)
    ensures |rs| == |ts|
    ensures forall i :: 0 <= i < |ts| ==> rs[i] == RewriteToken(ts[i])
    decreases |ts|
  {
    if |ts| == 0 then [] else [RewriteToken(ts[0])] + RewriteTokens(ts[1..])
  }

  /** The generator `run()` of `fix_code`, written as a loop over the stream. */
  method RewriteStream(ts: seq<Token>) returns (rs: seq<Token>)
    ensures rs == RewriteTokens(ts)
  {
    rs := [];
    var i := 0;
    while i < |ts|
      invariant 0 <= i <= |ts|
      invariant |rs| == i
      invariant forall j :: 0 <= j < i ==> rs[j] == RewriteToken(ts[j])
    {
      var t := ts[i];
      if t.text == ReporterName {
        t := t.(text := FactoryCall);
      }
      rs := rs + [t];
      i := i + 1;
    }
  }

  /** After the rewrite no token still names the reporter, and every token
      that did not name it exactly (a longer identifier, a string or comment
      mentioning it) is kept as it was. */
  lemma RewriteOnlyExactMatches(ts: seq<Token>, i: nat)
    requires i < |ts|
    ensures RewriteTokens(ts)[i].text != ReporterName
    ensures ts[i].text != ReporterName ==> RewriteTokens(ts)[i] == ts[i]
    ensures RewriteTokens(ts)[i].(text := ts[i].text) == ts[i]
  {
  }

  /** Rewriting an already rewritten stream changes nothing. */
  lemma RewriteIdempotent(ts: seq<Token>)
    ensures RewriteTokens(RewriteTokens(ts)) == RewriteTokens(ts)
  {
  }

  /** The rewrite acts on each token independently, so it commutes with
      cutting the stream in two. */
  lemma RewriteConcat(a: seq<Token>, b: seq<Token>)
    ensures RewriteTokens(a + b) == RewriteTokens(a) + RewriteTokens(b)
  {
  }

  /** `fix_code` with its error handling: a `TokenError` from the tokenizer
      becomes `ValueError('The script has a syntax error!')`, any other
      tokenizer error escapes unchanged, and a script that tokenizes becomes
      the untokenized rewritten stream followed by the sentinel statement. */
  function FixCode(code: string,
                   tokenize: string -> Result<seq<Token>, TokenizeError>,
                   untokenize: seq<Token> -> string): (r: Result<string, RewriteError>)
    ensures tokenize(code).Failure? <==> r.Failure?
    ensures tokenize(code).Failure? && tokenize(code).error.TokenError? ==>
              r == Failure(ValueError(SyntaxErrorMessage))
    ensures tokenize(code).Failure? && tokenize(code).error.OtherSyntaxError? ==>
              r == Failure(Uncaught(tokenize(code).error))
    ensures r.Success? ==> Text.EndsWith(r.value, SentinelStatement)
    ensures r.Success? ==>
              r.value[..|r.value| - |SentinelStatement|] == untokenize(RewriteTokens(tokenize(code).value))
  {
    match tokenize(code)
    case Failure(TokenError(_)) => Failure(ValueError(SyntaxErrorMessage))
    case Failure(e) => Failure(Uncaught(e))
    case Success(ts) => Success(untokenize(RewriteTokens(ts)) + SentinelStatement)
  }

  /** A stream with the reporter's name as a whole token, inside a longer
      identifier, and inside a string literal: only the first is replaced. */
  lemma RewriteExample()
    ensures var p := Position(1, 0);
            var ts := [Token(1, "StateDataReporter", p, p, ""),
                       Token(1, "MyStateDataReporter", p, p, ""),
                       Token(3, "'StateDataReporter'", p, p, "")];
            RewriteTokens(ts) == [Token(1, FactoryCall, p, p, ""), ts[1], ts[2]]
  {
    var p := Position(1, 0);
    var ts := [Token(1, "StateDataReporter", p, p, ""),
               Token(1, "MyStateDataReporter", p, p, ""),
               Token(3, "'StateDataReporter'", p, p, "")];
    assert ts[1].text != ReporterName by { assert |ts[1].text| != |ReporterName|; }
    assert ts[2].text != ReporterName by { assert |ts[2].text| != |ReporterName|; }
  }
}

=== FILE: session.dfy ===
/** A whole run: the script thread rewrites and executes the script, the
    consumer thread reads the queue. Only the order of what reaches the
    queue matters here, so the queue is the finite sequence of every item
    ever put on it, and executing the script is a parameter that reports
    which messages its reporters put and whether it ran to its last
    statement (`exec` in `run_openmm_script`, openmm_builder/runner.py). */
module Session {
  import opened Wrappers
  import opened Messages
  import Rewriter
  import opened Plots

  /** The queue-visible outcome of executing a script: the messages put by
      its reporters, in order, and whether control reached the end of the
      script rather than leaving it by an exception. */
  datatype Execution = Execution(emitted: seq<Message>, finished: bool)

  /** Some item of the queue is the sentinel. */
  predicate HasSentinel(items: seq<Option<Message>>) {
    exists j :: 0 <= j < |items| && items[j].None?
  }

  /** The queue as `run_openmm_script` fills it: nothing at all when the
      rewrite fails, otherwise the messages of the run followed by the
      sentinel only if the script reaches its appended last statement. */
  function QueueAsWritten(code: string,
                          tokenize: string -> Result<seq<Rewriter.Token>, Rewriter.TokenizeError>,
                          untokenize: seq<Rewriter.Token> -> string,
                          exec: string -> Execution): (items: seq<Option<Message>>)
    ensures Rewriter.FixCode(code, tokenize, untokenize).Failure? ==> items == []
    ensures Rewriter.FixCode(code, tokenize, untokenize).Success? ==>
              var e := exec(Rewriter.FixCode(code, tokenize, untokenize).value);
              && |e.emitted| <= |items|
              && items[..|e.emitted|] == Items(e.emitted)
              && (HasSentinel(items) <==> e.finished)
              && |items| == |e.emitted| + (if e.finished then 1 else 0)
  {
    match Rewriter.FixCode(code, tokenize, untokenize)
    case Failure(_) => []
    case Success(script) =>
      var e := exec(script);
      var items := Items(e.emitted) + if e.finished then [None] else [];
      assert items[..|e.emitted|] == Items(e.emitted);
      assert e.finished ==> items[|e.emitted|].None?;
      items
  }

  /** A queue of messages only never stops the consumer normally: it keeps
      polling with the status text "Running..." for ever. */
  lemma NoSentinelNeverDone(items: seq<Option<Message>>)
    requires !HasSentinel(items)
    ensures Consume(items).status != Done
    ensures StatusText(Consume(items).status) == "Running..."
  {
  }

  /** As written, a rewrite that fails, or a script that raises before its
      last statement (a reporter that cannot read its output, or any error of
      the user's script), means the consumer never reaches `Done`, and the
      window keeps showing "Running...": the consumer either polls for ever,
      or has died on a message without an x axis. */
  lemma AsWrittenHangs(code: string,
                       tokenize: string -> Result<seq<Rewriter.Token>, Rewriter.TokenizeError>,
                       untokenize: seq<Rewriter.Token> -> string,
                       exec: string -> Execution)
    requires Rewriter.FixCode(code, tokenize, untokenize).Success? ==>
               !exec(Rewriter.FixCode(code, tokenize, untokenize).value).finished
    ensures Consume(QueueAsWritten(code, tokenize, untokenize, exec)).status != Done
    ensures StatusText(Consume(QueueAsWritten(code, tokenize, untokenize, exec)).status) == "Running..."
  {
    NoSentinelNeverDone(QueueAsWritten(code, tokenize, untokenize, exec));
  }

  /** The smallest case: a script the tokenizer rejects (a `TokenError`,
      such as an unclosed bracket or triple-quoted string) puts nothing on
      the queue, and the consumer never leaves its starting state. */
  lemma SyntaxErrorLeavesConsumerRunning(code: string,
                                         untokenize: seq<Rewriter.Token> -> string,
                                         exec: string -> Execution)
    ensures var tokenize := (s: string) => Failure(Rewriter.TokenError("EOF in multi-line statement"));
            && QueueAsWritten(code, tokenize, untokenize, exec) == []
            && Consume(QueueAsWritten(code, tokenize, untokenize, exec)) == Start
  {
  }

  /** A syntax error the tokenizer lets through, such as `x = = 1`, makes
      `exec` fail to compile the rewritten script before any statement runs:
      nothing is put on the queue either, and the consumer never leaves its
      starting state. */
  lemma CompileErrorLeavesConsumerRunning(code: string,
                                          tokenize: string -> Result<seq<Rewriter.Token>, Rewriter.TokenizeError>,
                                          untokenize: seq<Rewriter.Token> -> string,
                                          exec: string -> Execution)
    requires Rewriter.FixCode(code, tokenize, untokenize).Success?
    requires exec(Rewriter.FixCode(code, tokenize, untokenize).value) == Execution([], false)
    ensures QueueAsWritten(code, tokenize, untokenize, exec) == []
    ensures Consume(QueueAsWritten(code, tokenize, untokenize, exec)) == Start
  {
  }

  /** The queue as the docstring of `fix_code` intends it: the sentinel is
      put once the script thread is over, however it ended (a `finally`
      around the rewrite and the execution). */
  function QueueGuarded(code: string,
                        tokenize: string -> Result<seq<Rewriter.Token>, Rewriter.TokenizeError>,
                        untokenize: seq<Rewriter.Token> -> string,
                        exec: string -> Execution): (items: seq<Option<Message>>)
    ensures |items| >= 1 && items[|items| - 1].None?
    ensures forall j :: 0 <= j < |items| - 1 ==> items[j].Some?
    ensures Rewriter.FixCode(code, tokenize, untokenize).Success? ==>
              items[..|items| - 1] == Items(exec(Rewriter.FixCode(code, tokenize, untokenize).value).emitted)
    ensures Rewriter.FixCode(code, tokenize, untokenize).Failure? ==> items == [None]
  {
    match Rewriter.FixCode(code, tokenize, untokenize)
    case Failure(_) => [None]
    case Success(script) =>
      var items := Items(exec(script).emitted) + [None];
      assert items[..|items| - 1] == Items(exec(script).emitted);
      items
  }

  /** With the sentinel guaranteed, the consumer always stops: at the
      sentinel, or earlier when a message makes `update_plot` raise. */
  lemma GuardedAlwaysStops(code: string,
                           tokenize: string -> Result<seq<Rewriter.Token>, Rewriter.TokenizeError>,
                           untokenize: seq<Rewriter.Token> -> string,
                           exec: string -> Execution)
    ensures Consume(QueueGuarded(code, tokenize, untokenize, exec)).status != Running
  {
    var items := QueueGuarded(code, tokenize, untokenize, exec);
    var pre := items[..|items| - 1];
    assert items == pre + [None] + [];
    SentinelStops(Start, pre, []);
  }

  /** The correction changes nothing for a script that runs to its end. */
  lemma GuardedAgreesOnFinishedRuns(code: string,
                                    tokenize: string -> Result<seq<Rewriter.Token>, Rewriter.TokenizeError>,
                                    untokenize: seq<Rewriter.Token> -> string,
                                    exec: string -> Execution)
    requires Rewriter.FixCode(code, tokenize, untokenize).Success?
    requires exec(Rewriter.FixCode(code, tokenize, untokenize).value).finished
    ensures QueueGuarded(code, tokenize, untokenize, exec) == QueueAsWritten(code, tokenize, untokenize, exec)
  {
  }

  /** The whole run with the corrected queue: the final state of the
      consumer thread. */
  function Run(code: string,
               tokenize: string -> Result<seq<Rewriter.Token>, Rewriter.TokenizeError>,
               untokenize: seq<Rewriter.Token> -> string,
               exec: string -> Execution): (c: Consumer)
    ensures c.status != Running
    ensures c.taken <= |QueueGuarded(code, tokenize, untokenize, exec)|
  {
    GuardedAlwaysStops(code, tokenize, untokenize, exec);
    Consume(QueueGuarded(code, tokenize, untokenize, exec))
  }
}

=== FILE: text.dfy ===
/** The handful of Python 2 `str` operations the program relies on:
    substring search (`in`), `split(sep)`, `split(sep, 1)`, `split(None, 1)`,
    `strip()`, `strip(chars)`, slicing `line[4:]` and `sep.join(parts)`. */
module Text {
  import opened Wrappers

  /** The characters Python 2's `str.isspace` accepts: space, tab, newline,
      carriage return, vertical tab and form feed. */
  const Whitespace: set<char> := {' ', '\t', '\n', '\r', '\U{000B}', '\U{000C}'}

  /** `sub` occurs in `s` starting at index `i`. */
  predicate OccursAt(s: string, sub: string, i: nat) {
    i + |sub| <= |s| && s[i..i + |sub|] == sub
  }

  /** Python's `sub in s`. */
  predicate Contains(s: string, sub: string) {
    exists i :: 0 <= i <= |s| - |sub| && OccursAt(s, sub, i)
  }

  predicate StartsWith(s: string, prefix: string) {
    |prefix| <= |s| && s[..|prefix|] == prefix
  }

  predicate EndsWith(s: string, suffix: string) {
    |suffix| <= |s| && s[|s| - |suffix|..] == suffix
  }

  /** The first index at or after `from` where `sub` occurs, as `str.find`. */
  function FindFrom(s: string, sub: string, from: nat): (r: Option<nat>)
    requires from <= |s|
    ensures r.Some? ==> from <= r.value && OccursAt(s, sub, r.value)
    ensures r.Some? ==> forall j :: from <= j < r.value ==> !OccursAt(s, sub, j)
    ensures r.None? ==> forall j :: from <= j ==> !OccursAt(s, sub, j)
    decreases |s| - from
  {
    if OccursAt(s, sub, from) then Some(from)
    else if from == |s| then None
    else FindFrom(s, sub, from + 1)
  }

  /** The leftmost occurrence of `sub` in `s`. */
  function Find(s: string, sub: string): (r: Option<nat>)
    ensures r.Some? ==> OccursAt(s, sub, r.value)
    ensures r.Some? ==> forall j :: 0 <= j < r.value ==> !OccursAt(s, sub, j)
    ensures r.None? <==> !Contains(s, sub)
  {
    FindFrom(s, sub, 0)
  }

  /** An occurrence inside a prefix is an occurrence in the whole string. */
  lemma OccursInPrefix(s: string, sub: string, i: nat, j: nat)
    requires i <= |s|
    requires OccursAt(s[..i], sub, j)
    ensures OccursAt(s, sub, j)
  {
    assert s[..i][j..j + |sub|] == s[j..j + |sub|];
  }

  /** Python's `s.split(sep)` for a non-empty separator: cut at every
      leftmost, non-overlapping occurrence of `sep`. */
  function Split(s: string, sep: string): (parts: seq<string>)
    requires |sep| > 0
    ensures |parts| >= 1
    decreases |s|
  {
    match Find(s, sep)
    case None => [s]
    case Some(i) => [s[..i]] + Split(s[i + |sep|..], sep)
  }

  /** Python's `sep.join(parts)`. */
  function Join(sep: string, parts: seq<string>): string
    decreases |parts|
  {
    if |parts| == 0 then ""
    else if |parts| == 1 then parts[0]
    else parts[0] + sep + Join(sep, parts[1..])
  }

  /** `Join` of three pieces, written out. */
  lemma JoinThree(sep: string, a: string, b: string, c: string)
    ensures Join(sep, [a, b, c]) == a + sep + b + sep + c
  {
    assert [a, b, c][1..] == [b, c] && [b, c][1..] == [c];
    assert Join(sep, [b, c]) == b + sep + c;
    assert Join(sep, [a, b, c]) == a + sep + (b + sep + c);
  }

  /** No piece produced by `Split` contains the separator. */
  lemma {:induction false} SplitPartsAreFree(s: string, sep: string)
    requires |sep| > 0
    ensures forall k :: 0 <= k < |Split(s, sep)| ==> !Contains(Split(s, sep)[k], sep)
    decreases |s|
  {
    match Find(s, sep)
    case None =>
    case Some(i) =>
      forall j | 0 <= j <= |s[..i]| - |sep| && OccursAt(s[..i], sep, j)
        ensures false
      {
        OccursInPrefix(s, sep, i, j);
      }
      SplitPartsAreFree(s[i + |sep|..], sep);
      var rest := Split(s[i + |sep|..], sep);
      assert Split(s, sep) == [s[..i]] + rest;
      forall k | 1 <= k < |Split(s, sep)|
        ensures !Contains(Split(s, sep)[k], sep)
      {
        assert Split(s, sep)[k] == rest[k - 1];
      }
  }

  /** Joining the pieces of a split with the same separator restores the
      original text. */
  lemma {:induction false} JoinSplit(s: string, sep: string)
    requires |sep| > 0
    ensures Join(sep, Split(s, sep)) == s
    decreases |s|
  {
    var f := Find(s, sep);
    if f.Some? {
      var i := f.value;
      var tail := s[i + |sep|..];
      SplitUnfold(s, sep, i);
      JoinSplit(tail, sep);
      JoinCons(sep, s[..i], Split(tail, sep));
      OccurrenceCuts(s, sep, i);
    }
  }

  /** Joining a first piece onto at least one more puts the separator after it. */
  lemma JoinCons(sep: string, head: string, rest: seq<string>)
    requires |rest| >= 1
    ensures Join(sep, [head] + rest) == head + sep + Join(sep, rest)
  {
    assert ([head] + rest)[1..] == rest;
  }

  /** An occurrence of `sep` at `i` cuts `s` into the text before it, `sep`
      and the text after it. */
  lemma OccurrenceCuts(s: string, sep: string, i: nat)
    requires OccursAt(s, sep, i)
    ensures s == s[..i] + sep + s[i + |sep|..]
  {
    assert s == s[..i] + s[i..i + |sep|] + s[i + |sep|..];
  }

  /** A one-character separator that occurs in none of the pieces can be
      recovered by splitting: `Split` inverts `Join`. */
  lemma {:induction false} SplitJoin(parts: seq<string>, c: char)
    requires |parts| >= 1
    requires forall k :: 0 <= k < |parts| ==> c !in parts[k]
    ensures Split(Join([c], parts), [c]) == parts
    decreases |parts|
  {
    var sep := [c];
    var s := Join(sep, parts);
    if |parts| == 1 {
      assert s == parts[0];
      NoCharNoOccurrence(parts[0], c);
    } else {
      var tail := Join(sep, parts[1..]);
      assert s == parts[0] + sep + tail;
      FirstCharOccurrence(parts[0], c, tail);
      SplitUnfold(s, sep, |parts[0]|);
      SplitJoin(parts[1..], c);
      assert parts == [parts[0]] + parts[1..];
    }
  }

  /** One step of `Split`: the piece before the first occurrence, then the rest. */
  lemma SplitUnfold(s: string, sep: string, i: nat)
    requires |sep| > 0 && Find(s, sep) == Some(i)
    ensures Split(s, sep) == [s[..i]] + Split(s[i + |sep|..], sep)
  {
  }

  /** The first occurrence of `c` in `p + [c] + t`, when `p` lacks it, is right after `p`. */
  lemma FirstCharOccurrence(p: string, c: char, t: string)
    requires c !in p
    ensures Find(p + [c] + t, [c]) == Some(|p|)
    ensures (p + [c] + t)[..|p|] == p && (p + [c] + t)[|p| + 1..] == t
  {
    var s := p + [c] + t;
    assert OccursAt(s, [c], |p|);
    forall j | 0 <= j < |p|
      ensures !OccursAt(s, [c], j)
    {
      assert s[j] == p[j];
      assert s[j..j + 1][0] == s[j];
    }
  }

  /** A character absent from `s` does not occur in it as a one-character string. */
  lemma NoCharNoOccurrence(s: string, c: char)
    requires c !in s
    ensures Find(s, [c]) == None
  {
    forall j | 0 <= j <= |s| - 1
      ensures !OccursAt(s, [c], j)
    {
      assert s[j..j + 1][0] == s[j];
    }
  }

  /** Python's `s.split(sep, 1)`: at most one cut, at the first occurrence. */
  function SplitOnce(s: string, sep: string): (parts: seq<string>)
    requires |sep| > 0
    ensures 1 <= |parts| <= 2
    ensures |parts| == 1 <==> !Contains(s, sep)
    ensures |parts| == 1 ==> parts[0] == s
    ensures |parts| == 2 ==> s == parts[0] + sep + parts[1] && !Contains(parts[0], sep)
  {
    match Find(s, sep)
    case None => [s]
    case Some(i) =>
      assert s == s[..i] + sep + s[i + |sep|..];
      assert !Contains(s[..i], sep) by {
        forall j | 0 <= j <= |s[..i]| - |sep| && OccursAt(s[..i], sep, j)
          ensures false
        {
          OccursInPrefix(s, sep, i, j);
        }
      }
      [s[..i], s[i + |sep|..]]
  }

  /** The first index at or after `from` whose character is in `cs` when
      `inside` is false, or not in `cs` when it is true; `|s|` if none is. */
  function SkipWhile(s: string, cs: set<char>, inside: bool, from: nat): (i: nat)
    requires from <= |s|
    ensures from <= i <= |s|
    ensures forall j :: from <= j < i ==> (s[j] in cs) == inside
    ensures i < |s| ==> (s[i] in cs) != inside
    decreases |s| - from
  {
    if from < |s| && (s[from] in cs) == inside then SkipWhile(s, cs, inside, from + 1) else from
  }

  /** The end of `s[..end]` once its trailing characters drawn from `cs` are dropped. */
  function SkipBackIn(s: string, cs: set<char>, end: nat): (i: nat)
    requires end <= |s|
    ensures i <= end
    ensures forall j :: i <= j < end ==> s[j] in cs
    ensures i > 0 ==> s[i - 1] !in cs
    decreases end
  {
    if end > 0 && s[end - 1] in cs then SkipBackIn(s, cs, end - 1) else end
  }

  /** `s` with the leading characters drawn from `cs` removed. */
  function StripStart(s: string, cs: set<char>): (r: string)
    ensures |r| <= |s| && r == s[|s| - |r|..]
    ensures forall j :: 0 <= j < |s| - |r| ==> s[j] in cs
    ensures |r| > 0 ==> r[0] !in cs
  {
    s[SkipWhile(s, cs, true, 0)..]
  }

  /** `s` with the trailing characters drawn from `cs` removed. */
  function StripEnd(s: string, cs: set<char>): (r: string)
    ensures |r| <= |s| && r == s[..|r|]
    ensures forall j :: |r| <= j < |s| ==> s[j] in cs
    ensures |r| > 0 ==> r[|r| - 1] !in cs
  {
    s[..SkipBackIn(s, cs, |s|)]
  }

  /** `r` is the infix of `s` starting at `a`, and everything of `s` outside
      it is drawn from `cs`. */
  ghost predicate TrimmedAt(s: string, r: string, cs: set<char>, a: nat) {
    && a + |r| <= |s|
    && r == s[a..a + |r|]
    && (forall j :: 0 <= j < a ==> s[j] in cs)
    && (forall j :: a + |r| <= j < |s| ==> s[j] in cs)
  }

  /** `r` is `s` with every leading and trailing character of `cs` cut off. */
  ghost predicate IsStripped(s: string, r: string, cs: set<char>) {
    && (|r| > 0 ==> r[0] !in cs && r[|r| - 1] !in cs)
    && exists a :: TrimmedAt(s, r, cs, a)
  }

  /** Python's `s.strip(chars)`: the longest infix of `s` that neither
      starts nor ends with a character of `cs`, everything cut off on either
      side being drawn from `cs`. */
  function Strip(s: string, cs: set<char>): (r: string)
    ensures IsStripped(s, r, cs)
  {
    StripTrims(s, cs);
    StripEnd(StripStart(s, cs), cs)
  }

  /** Stripping the start and then the end leaves an infix of `s`. */
  lemma StripTrims(s: string, cs: set<char>)
    ensures TrimmedAt(s, StripEnd(StripStart(s, cs), cs), cs, |s| - |StripStart(s, cs)|)
  {
    var t := StripStart(s, cs);
    var r := StripEnd(t, cs);
    var a := |s| - |t|;
    PrefixOfSuffix(s, a, |r|);
    forall j | a + |r| <= j < |s|
      ensures s[j] in cs
    {
      assert s[j] == t[j - a];
    }
  }

  /** The first `n` characters of `s[a..]` are `s[a..a + n]`. */
  lemma PrefixOfSuffix(s: string, a: nat, n: nat)
    requires a + n <= |s|
    ensures s[a..][..n] == s[a..a + n]
  {
  }

  /** Python's `s.strip()` with no argument. */
  function StripWhitespace(s: string): string {
    Strip(s, Whitespace)
  }

  /** The index of the first character of `s` that is in `cs`, or `|s|`. */
  function IndexIn(s: string, cs: set<char>): (i: nat)
    ensures i <= |s|
    ensures forall j :: 0 <= j < i ==> s[j] !in cs
    ensures i < |s| ==> s[i] in cs
  {
    SkipWhile(s, cs, false, 0)
  }

  /** Python's `s.split(None, 1)`: skip leading whitespace, take the first
      run of non-whitespace, and keep whatever follows the next whitespace
      run (trailing whitespace included) as the second piece, if anything
      does follow. */
  function SplitWhitespaceOnce(s: string): (parts: seq<string>)
    ensures |parts| <= 2
    ensures forall k :: 0 <= k < |parts| ==> |parts[k]| > 0 && parts[k][0] !in Whitespace
    ensures |parts| >= 1 ==> forall j :: 0 <= j < |parts[0]| ==> parts[0][j] !in Whitespace
    ensures |parts| == 0 <==> forall j :: 0 <= j < |s| ==> s[j] in Whitespace
    ensures |parts| == 1 ==> parts[0] == Strip(s, Whitespace)
    ensures |parts| == 2 ==> GapBetween(StripStart(s, Whitespace), parts[0], parts[1])
  {
    var t := StripStart(s, Whitespace);
    if t == "" then []
    else
      var i := IndexIn(t, Whitespace);
      var rest := StripStart(t[i..], Whitespace);
      WordThenRest(t, i, rest);
      if rest == "" then [t[..i]] else [t[..i], rest]
  }

  /** `t` is `first`, a non-empty run of whitespace, then `second`. */
  ghost predicate GapBetween(t: string, first: string, second: string) {
    exists g: string :: |g| > 0 && (forall c :: c in g ==> c in Whitespace) && t == first + g + second
  }

  /** Cutting a text that starts with a word at the word's end: when only
      whitespace follows, the word is the text stripped at its end; otherwise
      a whitespace run separates the word from the rest. */
  lemma WordThenRest(t: string, i: nat, rest: string)
    requires |t| > 0 && t[0] !in Whitespace
    requires i == IndexIn(t, Whitespace) && rest == StripStart(t[i..], Whitespace)
    ensures rest == "" ==> t[..i] == StripEnd(t, Whitespace)
    ensures rest != "" ==> GapBetween(t, t[..i], rest)
  {
    if rest == "" {
      var u := t[i..];
      assert t == t[..i] + u;
      StripEndSuffix(t[..i], u, Whitespace);
    } else {
      assert t[i..][0] in Whitespace;
      GapAfterWord(t, i, rest);
    }
  }

  /** What `StripStart` leaves of a text starting with whitespace follows a
      non-empty whitespace run. */
  lemma GapAfterWord(t: string, i: nat, rest: string)
    requires i < |t| && t[i] in Whitespace
    requires rest == StripStart(t[i..], Whitespace) && rest != ""
    ensures GapBetween(t, t[..i], rest)
  {
    var u := t[i..];
    var k := |u| - |rest|;
    assert u[0] == t[i];
    var g := u[..k];
    assert u == g + rest;
    assert t == t[..i] + g + rest;
  }

  /** `x.split(None, 1)` undoes writing two words with whitespace around
      and between them. */
  lemma SplitWhitespaceOnceWords(lead: string, first: string, gap: string, second: string)
    requires forall j :: 0 <= j < |lead| ==> lead[j] in Whitespace
    requires forall j :: 0 <= j < |gap| ==> gap[j] in Whitespace
    requires |first| > 0 && forall j :: 0 <= j < |first| ==> first[j] !in Whitespace
    requires |gap| > 0
    requires |second| > 0 && second[0] !in Whitespace
    ensures SplitWhitespaceOnce(lead + first + gap + second) == [first, second]
  {
    var rest := gap + second;
    var t := first + rest;
    assert lead + first + gap + second == lead + t;
    assert t[0] == first[0];
    StripStartPrefix(lead, t, Whitespace);
    assert rest[0] == gap[0];
    IndexInPrefix(first, rest);
    assert t[..|first|] == first;
    assert t[|first|..] == rest;
    StripStartPrefix(gap, second, Whitespace);
  }

  /** A single word with whitespace around it gives at most one piece. */
  lemma SplitWhitespaceOnceOneWord(lead: string, word: string, trail: string)
    requires forall j :: 0 <= j < |lead| ==> lead[j] in Whitespace
    requires forall j :: 0 <= j < |trail| ==> trail[j] in Whitespace
    requires forall j :: 0 <= j < |word| ==> word[j] !in Whitespace
    ensures |SplitWhitespaceOnce(lead + word + trail)| <= 1
  {
    var s := lead + word + trail;
    if |word| > 0 {
      var t := word + trail;
      assert s == lead + t;
      assert t[0] == word[0];
      StripStartPrefix(lead, t, Whitespace);
      if |trail| > 0 {
        IndexInPrefix(word, trail);
      } else {
        assert t == word;
      }
      assert t[|word|..] == trail;
      assert StripStart(trail, Whitespace) == "";
    } else {
      assert forall j :: 0 <= j < |s| ==> s[j] in Whitespace by {
        forall j | 0 <= j < |s|
          ensures s[j] in Whitespace
        {
          if j < |lead| { assert s[j] == lead[j]; } else { assert s[j] == trail[j - |lead|]; }
        }
      }
    }
  }

  /** `split(sep, 1)` cuts at the first occurrence of `sep`. */
  lemma SplitOnceAt(s: string, sep: string, i: nat)
    requires |sep| > 0 && Find(s, sep) == Some(i)
    ensures SplitOnce(s, sep) == [s[..i], s[i + |sep|..]]
  {
  }

  /** Stripping a prefix drawn from `cs` stops at the first other character. */
  lemma StripStartPrefix(pre: string, s: string, cs: set<char>)
    requires forall j :: 0 <= j < |pre| ==> pre[j] in cs
    requires |s| > 0 && s[0] !in cs
    ensures StripStart(pre + s, cs) == s
  {
    var u := pre + s;
    assert forall j :: 0 <= j < |pre| ==> u[j] == pre[j];
    assert u[|pre|] == s[0];
    assert SkipWhile(u, cs, true, 0) == |pre|;
    assert u[|pre|..] == s;
  }

  /** Stripping a suffix drawn from `cs` stops at the last other character. */
  lemma StripEndSuffix(s: string, post: string, cs: set<char>)
    requires forall j :: 0 <= j < |post| ==> post[j] in cs
    requires |s| > 0 && s[|s| - 1] !in cs
    ensures StripEnd(s + post, cs) == s
  {
    var u := s + post;
    assert forall j :: |s| <= j < |u| ==> u[j] == post[j - |s|];
    assert u[|s| - 1] == s[|s| - 1];
    assert SkipBackIn(u, cs, |u|) == |s|;
    assert u[..|s|] == s;
  }

  /** `strip` removes exactly a surrounding made of `cs` characters. */
  lemma StripSurrounded(pre: string, mid: string, post: string, cs: set<char>)
    requires forall j :: 0 <= j < |pre| ==> pre[j] in cs
    requires forall j :: 0 <= j < |post| ==> post[j] in cs
    requires |mid| > 0 && mid[0] !in cs && mid[|mid| - 1] !in cs
    ensures Strip(pre + mid + post, cs) == mid
  {
    assert pre + mid + post == pre + (mid + post);
    assert (mid + post)[0] == mid[0];
    StripStartPrefix(pre, mid + post, cs);
    StripEndSuffix(mid, post, cs);
  }

  /** `IndexIn` skips a prefix free of whitespace and stops at a following
      whitespace character. */
  lemma IndexInPrefix(pre: string, s: string)
    requires forall j :: 0 <= j < |pre| ==> pre[j] !in Whitespace
    requires |s| > 0 && s[0] in Whitespace
    ensures IndexIn(pre + s, Whitespace) == |pre|
  {
    var u := pre + s;
    assert forall j :: 0 <= j < |pre| ==> u[j] == pre[j];
    assert u[|pre|] == s[0];
  }
}

=== FILE: units.dfy ===
/** The unit-carrying float trait of openmm_builder/units.py: how a quantity
    is written back as source text (`_new_str_`), how the text typed into a
    form is parsed (`_parse`), and when the parsed value is accepted
    (`UnittedFloat.validate`). Python's `eval` and `float`, simtk's unit
    arithmetic and its compatibility test are parameters. */
module Units {
  import opened Wrappers
  import Text

  /** A simtk quantity: a number and the name of its unit. */
  datatype Quantity = Quantity(value: real, unitName: string)

  /** The `TraitError` raised by `self.error(object, name, value)` for the
      text `value` typed into the form. */
  datatype UnitError = TraitError(text: string)

  /** `Quantity.__str__` as replaced by the module: a unit name that starts
      with `/` (an inverse unit such as `/picosecond`) is glued to the value,
      any other unit is joined to it by `*`. `show` is `str` on the value. */
  function NewStr(q: Quantity, show: real -> string): (s: string)
    ensures Text.StartsWith(s, show(q.value))
    ensures Text.EndsWith(s, q.unitName)
    ensures Text.StartsWith(q.unitName, "/") ==> |s| == |show(q.value)| + |q.unitName|
    ensures !Text.StartsWith(q.unitName, "/") ==> |s| == |show(q.value)| + 1 + |q.unitName|
    ensures !Text.StartsWith(q.unitName, "/") ==> s[|show(q.value)|] == '*'
  {
    if Text.StartsWith(q.unitName, "/") then show(q.value) + q.unitName
    else show(q.value) + "*" + q.unitName
  }

  /** When the value text has no `*` in it, the first `*` of the written
      form separates exactly the value text from the unit name; an inverse
      unit is never preceded by one, so value text and unit name are still
      recovered by position. */
  lemma NewStrSplits(q: Quantity, show: real -> string)
    requires '*' !in show(q.value)
    ensures !Text.StartsWith(q.unitName, "/") ==>
              Text.SplitOnce(NewStr(q, show), "*") == [show(q.value), q.unitName]
    ensures Text.StartsWith(q.unitName, "/") ==>
              NewStr(q, show)[..|show(q.value)|] == show(q.value)
              && NewStr(q, show)[|show(q.value)|..] == q.unitName
  {
    var v := show(q.value);
    var s := NewStr(q, show);
    if !Text.StartsWith(q.unitName, "/") {
      assert s == v + ['*'] + q.unitName;
      Text.FirstCharOccurrence(v, '*', q.unitName);
      Text.SplitOnceAt(s, ['*'], |v|);
    }
  }

  /** `_parse`: the text is evaluated as an expression first; when that
      raises, it is split at the first whitespace run into exactly two
      pieces, the first read as a float and multiplied by the value of the
      second (which makes `2.0 femtoseconds` mean `2.0*femtoseconds`). Any
      failure on the way is a `TraitError`. */
  function Parse<V>(text: string,
                    eval: string -> Option<V>,
                    toFloat: string -> Option<real>,
                    times: (real, V) -> Option<V>): (r: Result<V, UnitError>)
    ensures eval(text).Some? ==> r == Success(eval(text).value)
    ensures r.Failure? ==> r.error == TraitError(text)
    ensures eval(text).None? && |Text.SplitWhitespaceOnce(text)| != 2 ==> r.Failure?
    ensures eval(text).None? && r.Success? ==>
              var parts := Text.SplitWhitespaceOnce(text);
              && |parts| == 2
              && toFloat(parts[0]).Some? && eval(parts[1]).Some?
              && times(toFloat(parts[0]).value, eval(parts[1]).value) == Some(r.value)
    ensures eval(text).None? && |Text.SplitWhitespaceOnce(text)| == 2 ==>
              var parts := Text.SplitWhitespaceOnce(text);
              toFloat(parts[0]).Some? && eval(parts[1]).Some?
              && times(toFloat(parts[0]).value, eval(parts[1]).value).Some? ==>
                r == Success(times(toFloat(parts[0]).value, eval(parts[1]).value).value)
  {
    match eval(text)
    case Some(v) => Success(v)
    case None =>
      var parts := Text.SplitWhitespaceOnce(text);
      if |parts| != 2 then Failure(TraitError(text))
      else
        match (toFloat(parts[0]), eval(parts[1]))
        case (Some(x), Some(u)) =>
          (match times(x, u)
           case Some(v) => Success(v)
           case None => Failure(TraitError(text)))
        case _ => Failure(TraitError(text))
  }

  /** `validate`: the parsed value is returned only when it has a unit (an
      attribute lookup that raises for anything but a quantity) and that unit
      is compatible with the trait's unit; a compatibility test that raises
      counts as incompatible. */
  function Validate<V, U>(traitUnit: U, text: string,
                          eval: string -> Option<V>,
                          toFloat: string -> Option<real>,
                          times: (real, V) -> Option<V>,
                          unitOf: V -> Option<U>,
                          compatible: (U, U) -> Option<bool>): (r: Result<V, UnitError>)
    ensures r.Success? <==>
              && Parse(text, eval, toFloat, times).Success?
              && unitOf(Parse(text, eval, toFloat, times).value).Some?
              && compatible(unitOf(Parse(text, eval, toFloat, times).value).value, traitUnit) == Some(true)
    ensures r.Success? ==> r.value == Parse(text, eval, toFloat, times).value
    ensures r.Failure? ==> r.error == TraitError(text)
  {
    var v :- Parse(text, eval, toFloat, times);
    match unitOf(v)
    case None => Failure(TraitError(text))
    case Some(u) =>
      if compatible(u, traitUnit) == Some(true) then Success(v) else Failure(TraitError(text))
  }

  /** The fallback reads "number, whitespace, unit expression": text made of
      a number word and a unit word with whitespace around and between them
      parses as their product when the whole text does not evaluate. */
  lemma ParseNumberThenUnit<V>(lead: string, number: string, gap: string, unitText: string,
                               eval: string -> Option<V>,
                               toFloat: string -> Option<real>,
                               times: (real, V) -> Option<V>)
    requires forall j :: 0 <= j < |lead| ==> lead[j] in Text.Whitespace
    requires |gap| > 0 && forall j :: 0 <= j < |gap| ==> gap[j] in Text.Whitespace
    requires |number| > 0 && forall j :: 0 <= j < |number| ==> number[j] !in Text.Whitespace
    requires |unitText| > 0 && unitText[0] !in Text.Whitespace
    requires eval(lead + number + gap + unitText).None?
    ensures var text := lead + number + gap + unitText;
            Parse(text, eval, toFloat, times)
            == if toFloat(number).Some? && eval(unitText).Some?
               then (match times(toFloat(number).value, eval(unitText).value)
                     case Some(v) => Success(v)
                     case None => Failure(TraitError(text)))
               else Failure(TraitError(text))
  {
    Text.SplitWhitespaceOnceWords(lead, number, gap, unitText);
  }

  /** A single word that does not evaluate is rejected: `split(None, 1)`
      yields one piece, which cannot be unpacked into two. */
  lemma ParseOneWordFails<V>(lead: string, word: string, trail: string,
                             eval: string -> Option<V>,
                             toFloat: string -> Option<real>,
                             times: (real, V) -> Option<V>)
    requires forall j :: 0 <= j < |lead| ==> lead[j] in Text.Whitespace
    requires forall j :: 0 <= j < |trail| ==> trail[j] in Text.Whitespace
    requires forall j :: 0 <= j < |word| ==> word[j] !in Text.Whitespace
    requires eval(lead + word + trail).None?
    ensures Parse(lead + word + trail, eval, toFloat, times).Failure?
  {
    Text.SplitWhitespaceOnceOneWord(lead, word, trail);
  }
}

=== FILE: wrappers.dfy ===
/** Optional values and outcomes that can fail. `Option` stands for a
    lookup or a conversion that may give nothing back; `Result` stands for a
    Python call that either returns or raises, and supports `:-` so that a
    raise inside a helper ends the calling function with the same error. */
module Wrappers {

  datatype Option<+T> = None | Some(value: T)

  datatype Result<+R, +E> = Success(value: R) | Failure(error: E) {
    /** `:-` stops at a raise. */
    predicate IsFailure() {
      Failure?
    }

    /** The same error, carried to a caller with another return type. */
    function PropagateFailure<U>(): Result<U, E>
      requires Failure?
    {
      Failure(error)
    }

    /** The returned value, once the call did not raise. */
    function Extract(): R
      requires Success?
    {
      value
    }
  }
}
